=== FILE: README.md ===
# qd-common authentication and logging core, in Dafny

This project models the part of `qd-common` that issues and checks the
service's access tokens, plus the context helpers that carry tokens,
claims and correlation IDs between services.

**Tokens.**
- A `TokenSigner` turns a list of claim pairs into an RS256-signed JSON Web
  Token (JWT). The payload always carries `iat` and a random `nonce`.
- A `TokenVerifier` and a `JwtAuthenticator` check such a token. Each holds
  an RSA public key read from PEM text.
- Each checker accepts a token only if its algorithm is in the RSA family,
  its signature verifies, and its expiry claim is not before "now". The
  verifier reads the expiry from `exp`; the authenticator reads it from
  `expiry`.
- A `TokenInspector` reads `email`, `type`, `exp` and `userID` back out of a
  parsed token.

**Keys.** A `KeyManager` keeps an RSA key pair in two PEM files,
`private.pem` and `public.pem`, inside one directory.
- It generates the pair when the private key file is missing.
- It loads the pair otherwise.
- It can rotate the pair.
- It exports the public key as PEM text.

**Context helpers.**
- The JWT middleware adds `authorization: Bearer <token>` to outgoing gRPC
  metadata, and reads token claims stored in a context.
- The log middleware and the logger factory move the `correlation_id`
  metadata entry between incoming and outgoing contexts. They also build
  loggers whose level depends on the environment name: `prod` gives Warn,
  anything else gives Debug.

**Modules.**

| module | models |
|---|---|
| `Results`, `Errors` | error values, including Go panics |
| `ClaimTypes` | claim names, token types, time |
| `Crypto` | symbolic RSA keys, DER and PEM |
| `JwtLibrary` | the JWT library the core calls |
| `TokenSigner` | pkg/jwt/token_signer.go |
| `TokenInspector` | pkg/jwt/token_inspector.go |
| `TokenVerifier` | pkg/jwt/token_verifier.go |
| `JwtAuthenticator` | pkg/jwt/jwt_authenticator.go |
| `FileSystem` | a file system value |
| `KeyManager` | pkg/jwt/key_manager.go |
| `Context` | Go contexts and gRPC metadata |
| `JwtMiddleware` | pkg/jwt/middleware.go |
| `LogMiddleware` | pkg/log/middleware.go |
| `LoggerFactory` | pkg/log/logger_factory.go |
| `Integration` | properties that cross modules |

`JwtAuthenticator` is its own module because `jwt_authenticator.go` declares
functions whose names clash with those in `key_manager.go` and
`token_verifier.go`.

**Cryptography is symbolic.**
- A private key is an identity plus a modulus size. `PublicOf` gives its
  public half.
- An RS256 signature records the signer's public key, the hash size and the
  exact header and payload signed. Verification checks that record.
- RSASSA-PKCS1-v1_5 signing with SHA-256 needs a modulus of at least 62
  bytes (section 9.2 of RFC 8017, note 1). Below that it fails, as
  "message too long".
- DER and PEM are constructors, so marshal-then-parse round-trips by
  construction. What the model keeps is which parser accepts which
  encoding.
- A JWT value is its decoded header and payload plus the signature.
  Base64url and JSON encodings are not modelled.

**Values, time and errors.**
- JSON numbers are `real`, as Go decodes them into `float64`.
- `ClaimTypes.Truncate` models Go's `int64(f)` conversion, which rounds
  toward zero.
- Time is a Unix second plus nanoseconds. `ClaimTypes.Before` is
  `time.Time.Before`.
- Each error records whose message it carries. The inspector's texts start
  "JWT Token ...", the verifier's "Token Verifier: JWT Token ..." and the
  authenticator's "JWTAuthenticator: JWT Token ..."; `Errors.Component`
  tells them apart.
- Go panics are modelled as `Err(Panic(reason))`. These are a nil PEM block,
  a failed type assertion to `*rsa.PublicKey`, and a method call through a
  nil file-system interface.

**Outside inputs become parameters.**
- The clock: `now`.
- The random source: an `Option<nat>` of entropy, where `None` means the
  source failed.
- The nonce: a string parameter.
- The disk: a `FileSystem.Fs` value holding files, directories, denied
  paths and a disk-full flag.

**Behaviour of the code the model keeps.**
- Asking the inspector for a claim that is absent yields a null value, not
  an error. `TokenInspector.GetClaimFromToken` returns `JNull`.
- A token whose expiry equals the current second is accepted when the
  current time has zero nanoseconds, because `expiry.Before(time.Now())`
  is false at that instant. See `TokenVerifier.ExpiryBoundary`.
- `jwt.Parse` runs the library's own checks of `exp`, `iat` and `nbf`
  against the current Unix second before the core sees the token. A
  token checked before the second it was signed in is refused with "Token
  used before issued". A token past its expiry second is refused by the
  library's "Token is expired". The verifier's own "expired" message
  appears in two cases only: within the expiry second itself, and for an
  `exp` of 0, which the library treats as unset and leaves to the
  verifier's comparison.
- When `userID` is not a string, `GetUserIDFromToken` returns the "token
  type not valid" error. `GetClaimsFromToken` then wraps it with the
  "expiry" step message. Both are modelled as written
  (`pkg/jwt/token_inspector.go:88` and `:110`).
- The verifiers test only that the method is an `*jwt.SigningMethodRSA`. So
  RS384 and RS512 tokens signed by the same key are accepted too, while
  RSA-PSS tokens are rejected.
- The verifiers' `!token.Valid` branch cannot be reached once the library
  reports success. `TokenVerifier.VerifyWith` keeps it as a dead branch.
- The inspector's type getter converts any string to a token type. It never
  checks the value against the four token types that
  `pkg/token/constants.go` declares (see `TokenInspector.TypeIsNotChecked`).
  The inspector names the type `token.Type` while the constants file
  declares `TokenType`; both are `ClaimTypes.TokenType` here.
- The gin middleware in `pkg/log/middleware.go` takes a `Factoryer`, which
  no file declares. The factory that is declared, `LogFactoryer` in
  `pkg/log/logger_factory.go`, is modelled as `LoggerFactory.LogFactory`.

## Model

| member | source | states |
|---|---|---|
| ClaimTypes.Truncate | pkg/jwt/token_inspector.go:48 | the float-to-int64 conversion drops the fraction toward zero: the result is the floor of a non-negative number and the ceiling of a negative one |
| JwtLibrary.SignRs256 | pkg/jwt/token_signer.go:59-64 | signing succeeds exactly when the key's modulus is at least 62 bytes, and the produced token carries the RS256 header and verifies under the key's public half |
| JwtLibrary.ParseUnverified | pkg/jwt/token_inspector.go:123 | unverified parsing succeeds exactly when the text is structurally a JWS whose `alg` names a registered method; the token is marked not valid |
| JwtLibrary.ValidateClaims | pkg/jwt/token_verifier.go:51-59 | the library's time-claim check passes exactly when `exp` is absent, zero or not before the current second and `iat` and `nbf` are absent, zero or not after it; a failure names the last failing check, so `nbf` outranks `iat`, which outranks `exp` |
| JwtLibrary.Parse | pkg/jwt/token_verifier.go:51-59 | verified parsing fails with the parse error or the key function's error when either fails; otherwise it succeeds exactly when the signature verifies under the returned key and the time claims pass; a bad signature is reported over a claims failure; the result is the parsed token marked valid |
| TokenSigner.ApplyClaims | pkg/jwt/token_signer.go:46-58 | claim application succeeds exactly when every value is a time, string or token type; the result's keys are the seed keys plus every claim key; on failure the error names an unsupported Go type |
| TokenSigner.SignToken | pkg/jwt/token_signer.go:41-65 | signing succeeds exactly when all claim values are supported and the key is large enough; the header algorithm is RS256; the payload keys are `iat`, `nonce` and the caller's keys; the signature verifies under the signer's public key |
| TokenSigner.FirstUnsupportedIsReported | pkg/jwt/token_signer.go:54-55 | the error names the Go type of the first unsupported value in argument order |
| TokenSigner.UntouchedKeysKeepValue | pkg/jwt/token_signer.go:42-53 | a seed claim that no caller pair names keeps its seeded value |
| TokenSigner.LastClaimWins | pkg/jwt/token_signer.go:46-53 | when a key appears more than once, the last pair's encoded value is the one in the payload |
| TokenSigner.SeededClaims | pkg/jwt/token_signer.go:42-45 | without caller overrides, `iat` is the signing second and `nonce` is the supplied nonce |
| TokenSigner.NonceSeparatesTokens | pkg/jwt/token_signer.go:42-45 | two signings with the same claims and clock but different nonces yield different tokens |
| TokenSigner.CallerNonceDefeatsUniqueness | pkg/jwt/token_signer.go:44-53 | a caller pair keyed `nonce` replaces the random nonce, so two signings can then yield the same payload |
| TokenInspector.GetClaimFromToken | pkg/jwt/token_inspector.go:30-36 | fails exactly when the claims are not a map; an absent key yields null, a present one its value |
| TokenInspector.ExpiryUnder | pkg/jwt/token_inspector.go:39-50 | succeeds exactly when the claim is a number; the time has zero nanoseconds and its second is the number truncated toward zero; otherwise the error is "expiry not valid", or "claims not a map" |
| TokenInspector.StringClaim | pkg/jwt/token_inspector.go:53-63 | succeeds exactly when the claim is a string and returns it; otherwise the caller's error, or "claims not a map" |
| TokenInspector.GetExpiryFromToken | pkg/jwt/token_inspector.go:39-50 | succeeds exactly when `exp` is a number; the time is that number of whole seconds after the Unix epoch |
| TokenInspector.GetEmailFromToken | pkg/jwt/token_inspector.go:53-63 | succeeds exactly when `email` is a string and returns that string; otherwise the inspector's "claims are not valid" or "email is not of valid type" |
| TokenInspector.GetTypeFromToken | pkg/jwt/token_inspector.go:66-77 | succeeds exactly when `type` is a string and converts it unchanged; on a map, failure is "token type not valid" |
| TokenInspector.GetUserIDFromToken | pkg/jwt/token_inspector.go:80-92 | succeeds exactly when `userID` is a string and returns that string; on a map, failure is the "token type not valid" error |
| TokenInspector.GetClaimsFromToken | pkg/jwt/token_inspector.go:95-118 | succeeds exactly when email, type and userID are strings and exp is a number; otherwise the first failing check, in source order, decides the wrapped error |
| TokenInspector.GetClaimsFromTokenString | pkg/jwt/token_inspector.go:121-129 | succeeds exactly when the text parses without verification and the payload is well typed; the email, type, whole-second expiry and user ID are those of the payload; a parse error is passed on unchanged |
| TokenInspector.ExpiryOfWholeSeconds | pkg/jwt/token_inspector.go:44-49 | a whole-second expiry written by the signer reads back as exactly that Unix time |
| TokenInspector.TypeIsNotChecked | pkg/jwt/token_inspector.go:71-76 | a `type` string that is none of the declared token types is still returned |
| TokenVerifier.LoadPublicKeyFromString | pkg/jwt/token_verifier.go:26-34 | loading succeeds exactly when the text is a PEM block holding a PKIX RSA public key, whatever the block type; text without a block, or a non-RSA key, panics |
| TokenVerifier.NewTokenVerifier | pkg/jwt/token_verifier.go:37-47 | construction succeeds exactly when the key loads, and it keeps the loaded key |
| TokenVerifier.KeyFor | pkg/jwt/token_verifier.go:51-56 | the key function hands out the verifier's key exactly for RSA-family methods, and otherwise reports "unexpected signing method" with the token's own `alg` |
| TokenVerifier.VerifyWith | pkg/jwt/token_verifier.go:50-71 | accepts exactly the RSA-signed tokens whose signature verifies, whose time claims pass the library's check and whose expiry is a number not before now; it returns the parsed token marked valid; each rejection, in order, has its own error, carrying the verifier's or authenticator's message, and a non-RSA method is reported with the token's `alg` |
| TokenVerifier.Verify | pkg/jwt/token_verifier.go:50-71 | the verifier accepts exactly under the acceptance rule, with the expiry read from `exp` |
| TokenVerifier.ExpiryBoundary | pkg/jwt/token_verifier.go:67-70 | a validly signed token that expires at second `s`, with no `iat` or `nbf` after `s`, is accepted at time `s` exactly when the nanoseconds are zero |
| TokenVerifier.UnverifiedClaimsAreNotVerified | pkg/jwt/token_inspector.go:121-129 | an unsigned `none` token yields claims through the string inspector but is rejected by the verifier |
| TokenVerifier.TamperedPayloadIsRejected | pkg/jwt/token_verifier.go:51-59 | changing the payload of a validly signed token makes verification fail with "signature invalid" |
| JwtAuthenticator.NewJwtAuthenticator | pkg/jwt/jwt_authenticator.go:59-67 | construction succeeds exactly when the PEM text holds an RSA public key, which it keeps |
| JwtAuthenticator.VerifyToken | pkg/jwt/jwt_authenticator.go:70-91 | accepts exactly under the acceptance rule with the expiry read from `expiry`, so an accepted token has a numeric `expiry` claim |
| JwtAuthenticator.GetExpiryFromToken | pkg/jwt/jwt_authenticator.go:94-105 | succeeds exactly when `expiry` is a number, and returns that Unix time truncated to whole seconds; failures carry the authenticator's messages |
| JwtAuthenticator.GetEmailFromToken | pkg/jwt/jwt_authenticator.go:108-118 | succeeds exactly when `email` is a string, and returns it; failures carry the authenticator's messages |
| JwtAuthenticator.ExpOnlyTokenIsRejected | pkg/jwt/jwt_authenticator.go:83-86 | a token without an `expiry` claim, such as one that carries only the signer's `exp`, is always rejected; when its signature is sound the error is "expiry not valid" |
| JwtAuthenticator.GettersRejectNonMapClaims | pkg/jwt/jwt_authenticator.go:95-98 | both getters fail when the claims are not a map, with the authenticator's message, which differs from the inspector's |
| JwtAuthenticator.EmailMustBeString | pkg/jwt/jwt_authenticator.go:113-117 | a numeric `email` is rejected as "email not valid" |
| KeyManager.CreateKeysFolderIfNotExists | pkg/jwt/key_manager.go:66-74 | the directory is created, with mode 0700, only when stat reports that it does not exist; files never change; a nil file system panics |
| KeyManager.GenerateKeyPair | pkg/jwt/key_manager.go:76-85 | fails exactly when the random source fails; otherwise it gives the 2048-bit key drawn from that source and its public half |
| FileSystem.ReadFile | pkg/fs/file_system.go:23-25 | a read succeeds exactly on a readable regular file and returns its contents; "does not exist" is reported exactly for a readable path that is neither a file nor a directory and does not run through a file |
| FileSystem.CreateAndWrite | pkg/fs/file_system.go:48-50 | creating and writing succeeds exactly when the directory exists, the path is writable and not a directory, and the disk has room; then only that path's contents change, and a directory is never replaced by a file |
| KeyManager.SavePrivateKeyToFile | pkg/jwt/key_manager.go:87-102 | writes the PKCS #1 PEM of the key to its path exactly when the directory exists, the path is writable and not a directory, and the disk has room; no other file changes |
| KeyManager.SavePublicKeyToFile | pkg/jwt/key_manager.go:104-122 | writes the PKIX PEM of the key to its path under the same conditions; no other file changes |
| KeyManager.LoadPrivateKeyFromFile | pkg/jwt/key_manager.go:124-137 | read errors are passed on; a file with no PEM block panics; otherwise the PKCS #1 parse decides |
| KeyManager.LoadPublicKeyFromFile | pkg/jwt/key_manager.go:139-152 | read errors are passed on; a file with no PEM block, or a non-RSA key, panics; otherwise the PKIX parse decides |
| KeyManager.GenerateKeyFiles | pkg/jwt/key_manager.go:154-177 | succeeds exactly when the file system is real, randomness is available, the directory exists or could be made, both paths are writable and not directories, and the disk has room; the new key is the 2048-bit key drawn from the random source; the new files map is stated exactly |
| KeyManager.NewKeyManager | pkg/jwt/key_manager.go:33-64 | a missing private key file leads to generation, whose error is returned as it is; any other private-key load error is returned unchanged with the disk untouched; a public-key load error is returned unchanged; otherwise both keys are loaded, and the load path keeps neither location nor file system |
| KeyManager.DirectoryAtKeyPathIsReturned | pkg/jwt/key_manager.go:35-39 | a directory at the private key's path is an "is a directory" error, returned without generating or writing anything |
| KeyManager.FileAtKeyDirectoryIsReturned | pkg/jwt/key_manager.go:35-39 | a regular file at the keys directory's path makes the read fail with "not a directory", which is returned without generating anything |
| KeyManager.NewKeyManagerKeepingStorage | pkg/jwt/key_manager.go:60-63 | the corrected constructor returns the original's outcome unchanged on every failure, and on success the same disk and keys, except that the loaded manager keeps its location and file system |
| KeyManager.GenerateNewKeyPair | pkg/jwt/key_manager.go:180-188 | a rotation succeeds exactly when the file system is real, randomness is available, the directory exists or could be made, both key paths are writable and not directories, and the disk has room; then the manager holds the 2048-bit key drawn from the random source and its public half, and the files map changes at the two key paths only, to their PEMs; on failure the manager is unchanged; a nil file system panics |
| KeyManager.GetPublicKey | pkg/jwt/key_manager.go:201-211 | export never fails; the PEM block is typed `RSA PUBLIC KEY`; the exported text loads back, through the verifier's loader, to exactly the manager's public key |
| KeyManager.PrivateWriteFailureLeavesPublicUntouched | pkg/jwt/key_manager.go:160-167 | when the private key cannot be written, the public key file is left as it was |
| KeyManager.ReloadAfterGenerate | pkg/jwt/key_manager.go:33-64 | constructing a manager on an empty directory and then constructing again on the resulting disk loads the same key pair |
| KeyManager.MismatchedPairIsLoaded | pkg/jwt/key_manager.go:53-63 | a private and a public key file from different pairs are both loaded without complaint |
| KeyManager.MissingPublicKeyIsFatal | pkg/jwt/key_manager.go:53-59 | a private key file without its public partner makes construction fail with the public file's read error, which is "does not exist" when the path is readable, not a directory and not inside a file |
| KeyManager.LoadedManagerCannotRotate | pkg/jwt/key_manager.go:60-63 | a manager built from existing key files panics on rotation |
| KeyManager.KeptStorageRotates | pkg/jwt/key_manager.go:180-188 | a manager from the corrected constructor rotates successfully on a writable disk |
| KeyManager.FolderErrorIsIgnored | pkg/jwt/key_manager.go:155 | when the directory cannot be made, generation goes on and fails later, at file creation, with a different error |
| KeyManager.ExportedKeyLoadsUnderAnyBlockType | pkg/jwt/key_manager.go:145-151 | a public key loads back whatever type its PEM block is labelled with |
| JwtMiddleware.AddAuthorizationMetadataToContext | pkg/jwt/middleware.go:31-41 | outgoing metadata gains `Bearer <token>` at the end of `authorization`; every other key, the incoming metadata and the context values are unchanged |
| JwtMiddleware.GetClaimsFromContext | pkg/jwt/middleware.go:44-49 | succeeds exactly when the claims key holds a claims pointer, which may be nil, and returns it; otherwise "claims not found" |
| JwtMiddleware.StoredClaimsAreFound | pkg/jwt/middleware.go:44-49 | claims stored under the claims key are read back unchanged |
| LogMiddleware.GetLoggerFromContext | pkg/log/middleware.go:82-87 | succeeds exactly when the logger key holds a logger, and returns it |
| LogMiddleware.GetCorrelationIDFromContext | pkg/log/middleware.go:121-131 | succeeds exactly when incoming metadata exists and holds exactly one correlation ID; no metadata and a missing or repeated ID give distinct errors |
| LogMiddleware.AddCorrelationIDToOutgoingContext | pkg/log/middleware.go:100-110 | outgoing metadata gains the ID at the end of `correlation_id`; its keys are the old ones plus `correlation_id`, and every other key keeps its values |
| LogMiddleware.AddCorrelationIDToIncomingContext | pkg/log/middleware.go:113-118 | incoming metadata is replaced by the single ID, which then reads back |
| LogMiddleware.TransferCorrelationIDToOutgoingContext | pkg/log/middleware.go:90-97 | fails exactly when the incoming ID cannot be read, with the prefixed message; otherwise it appends that ID to the outgoing metadata and leaves every other outgoing key, the key set apart from `correlation_id`, the incoming metadata and the context values as they were |
| LogMiddleware.CorrelationIDScenarios | pkg/log/middleware_test.go:14-106 | a stored logger is found; a single incoming ID is read back; an added outgoing ID is the first one there; a context with no metadata, no ID or two IDs, no logger, or a non-logger value under the logger key gets its own error |
| LogMiddleware.OutgoingCorrelationIDAccumulates | pkg/log/middleware.go:100-110 | adding two IDs leaves both in order, so a downstream reader sees a repeated ID |
| LogMiddleware.NewIDReachesOutgoing | pkg/log/middleware.go:90-118 | an ID set as incoming is transferred to the end of the outgoing metadata |
| LoggerFactory.SetUpLevel | pkg/log/logger_factory.go:35-42 | the level is Warn exactly for `prod`, and Debug otherwise |
| LoggerFactory.NewLogger | pkg/log/logger_factory.go:45-51 | a new logger has no correlation ID; its level is Warn in `prod` and Debug in every other environment |
| LoggerFactory.NewLoggerWithCorrelationID | pkg/log/logger_factory.go:54-74 | succeeds exactly when the context's correlation ID can be read, and then the logger carries it; otherwise it passes that error on |
| LoggerFactory.FactoryScenarios | pkg/log/logger_factory_test.go:14-52 | the scenarios of the factory tests hold |
| Integration.GeneratedManagerCanSign | pkg/jwt/key_manager.go:39-49 | a freshly generated manager holds a matching key pair whose modulus is large enough for RS256 signing |
| Integration.SignedClaimsPassLibrary | pkg/jwt/token_signer.go:42-57 | a signer-issued token whose caller claims leave `iat` and `nbf` alone passes the library's `iat` and `nbf` checks at any second from its signing on, and its `exp` check exactly up to its expiry second |
| Integration.ScenarioPayload | pkg/jwt/token_signer.go:42-57 | the integration scenario's signed payload holds each claim under its own key, with the type as its name and the expiry as whole seconds, and passes the library's time checks from the signing second up to the expiry second |
| Integration.SignVerifyInspectRoundTrip | pkg/jwt/jwt_integration_test.go:14-60 | a token signed with a generated key, verified no earlier than its signing second with the exported public key and inspected, gives back the email, type, whole-second expiry and user ID that went in |
| Integration.SignedTokenAcceptance | pkg/jwt/token_verifier.go:50-71 | a signer-issued token checked no earlier than its signing second is accepted exactly when the verifier's key matches the signer's and the expiry is not before now; a foreign key gives "signature invalid"; a stale expiry gives the library's "Token is expired", or the verifier's "expired" within the expiry second |
| Integration.VerifiedBeforeIssueIsRejected | pkg/jwt/token_verifier.go:51-59 | a signer-issued token checked before its signing second is refused with "Token used before issued", even with the right key and a future expiry |
| Integration.EarlyCheckExample | pkg/jwt/token_verifier.go:51-59 | a token signed at second 100 with expiry 200 is refused at second 50 |

## Left out

- JwtLibrary.ValidateClaims: a present `exp`, `iat` or `nbf` that is not a number is modelled as failing its check. Releases of golang-jwt v3 differ on this case, and the core's own tokens always carry numbers there.
- Integration.SignVerifyInspectRoundTrip: stated for a verification no earlier than the signing second, as in the integration test. An earlier check is refused by the library (`Integration.VerifiedBeforeIssueIsRejected`).
- Integration.SignedTokenAcceptance: stated for claim lists that leave `iat` and `nbf` to the signer and for a check no earlier than the signing second. Outside that, the library's checks decide, as `JwtLibrary.ValidateClaims` and `Integration.VerifiedBeforeIssueIsRejected` state.
- Real RSA arithmetic, SHA-256, ASN.1 DER, PEM armour, base64url and JSON encoding are symbolic. Only the facts the core relies on are kept: which key verifies which signature, which parser accepts which encoding, and the RS256 minimum key size.
- A `float64` holds integers exactly only up to 2^53, and `int64` wraps around. Claim numbers are exact reals here, so Unix times beyond those bounds are not modelled.
- gRPC metadata lower-cases keys in `metadata.New` and `Pairs`. `FromIncomingContext` and `FromOutgoingContext` also lower-case every key of the metadata attached to a context, merging keys that differ only in case. The model stores and reads keys as given. It takes attached metadata keys to be lower-case already, as every key the core writes is a lower-case literal. A merge's value order follows Go's map iteration order, which is unspecified, so no single result can be stated.
- JwtMiddleware.AddAuthorizationMetadataToContext: an outgoing key attached by other code that differs from `authorization` only in case, such as `Authorization`, is kept as a separate key. The code's read through `FromOutgoingContext` would fold it into `authorization`.
- LogMiddleware.GetCorrelationIDFromContext: an incoming key attached by other code that differs from `correlation_id` only in case, such as `Correlation_ID`, is not found. The code finds it, because `FromIncomingContext` lower-cases keys.
- LogMiddleware.AddCorrelationIDToOutgoingContext: the frame "every other key keeps its values" is stated over keys as attached. A mixed-case attached key is not folded into `correlation_id` or into its lower-case form, as the code would fold it.
- LogMiddleware.TransferCorrelationIDToOutgoingContext: inherits both gaps above, on the incoming read and the outgoing join.
- `jwt.Parse`'s claim check and the verifier's expiry comparison each read the clock (`pkg/jwt/token_verifier.go:51` and `:68`). The model passes one `now` to both.
- `uuid.New()` panics when the random source fails (`pkg/jwt/token_signer.go:44`). The model takes the nonce as a given string, so that panic is not modelled.
- The gin middleware and the gRPC interceptor (`CreateGinLoggerMiddleware`, `AddNewCorrelationIDToContext`, `CreateLoggerInterceptor`) are not modelled. They are framework wiring around the modelled helpers.
- Logging output (zerolog) is not modelled. A logger is its level plus an optional correlation ID.
- `GetRsaPrivateKey` and `GetRsaPublicKey` are plain field reads and carry no contract.
- Concurrent use of a `KeyManager` during `GenerateNewKeyPair` is not modelled. The source takes no lock.
- File permissions other than the directory mode are not modelled. A path is either writable or denied. Nested directories are not modelled either: `Mkdir` takes the parent to exist. Reading a directory, or a path that runs through a regular file, fails with "is a directory" or "not a directory", as `os.ReadFile` does.
- `KeyManager.CreateKeysFolderIfNotExists`: stat errors other than "does not exist" (including permission errors) all lead to no directory being made, as the code does. The model does not tell those errors apart.
- The `ctx` argument of `GetPublicKey` is unused by the source and is dropped.

## Findings

| source | as written | input that shows it | evidently intended | confidence | as-written member | corrected member |
|---|---|---|---|---|---|---|
| pkg/jwt/key_manager.go:60-63 | when both key files exist, `NewKeyManager` returns a manager with only the two keys set, leaving `fileLocation` empty and `fs` nil | run `NewKeyManager("keys")` on a directory that already holds `private.pem` and `public.pem`, then call `GenerateNewKeyPair()`: it calls through a nil file-system interface and panics | the load path keeps `fileLocation` and `fs`, as the generation path at lines 44-49 does, so a loaded manager can rotate its keys | high; not executed | KeyManager.LoadedManagerCannotRotate | KeyManager.NewKeyManagerKeepingStorage |

`KeyManager.LoadedManagerCannotRotate` proves the panic for the constructor as
written. `KeyManager.KeptStorageRotates` proves that a manager from the
corrected constructor rotates on a writable disk.

=== FILE: claim_types.dfy ===
/** Claim keys, token types, instants and the JSON values a decoded claim set
    holds: the vocabulary shared by the signer, the verifiers and the inspector. */
module ClaimTypes {

  // Registered and private claim keys of the token payload.
  const EmailClaim: string := "email"
  const ExpiryClaim: string := "exp"       // section 4.1.4 of RFC 7519
  const IssuedAtClaim: string := "iat"     // section 4.1.6 of RFC 7519
  const TypeClaim: string := "type"
  const UserIDClaim: string := "userID"
  /** The per-token nonce. The signer uses a `NonceClaim` constant that the
      constants file does not declare; the key the wire format uses is "nonce". */
  const NonceClaim: string := "nonce"

  /** `token.TokenType` is a Go string type: any text converts to one. */
  datatype TokenType = TokenType(name: string)

  const EmailVerificationTokenType: TokenType := TokenType("EmailVerificationTokenType")
  const ResetPasswordTokenType: TokenType := TokenType("ResetPasswordTokenType")
  const AccessTokenType: TokenType := TokenType("AccessTokenType")
  const RefreshTokenType: TokenType := TokenType("RefreshTokenType")

  /** One of the four token types the package declares. */
  predicate IsDeclaredTokenType(t: TokenType) {
    || t == EmailVerificationTokenType
    || t == ResetPasswordTokenType
    || t == AccessTokenType
    || t == RefreshTokenType
  }

  type Nanos = n: int | 0 <= n < 1_000_000_000

  /** A `time.Time`, reduced to what the core reads: whole seconds since the
      Unix epoch and the nanoseconds within that second. */
  datatype Instant = Instant(sec: int, nsec: Nanos)

  /** `time.Unix(sec, 0)`. */
  function FromUnix(sec: int): Instant {
    Instant(sec, 0)
  }

  /** `a.Before(b)`: the instant `a` lies strictly before `b`. */
  predicate Before(a: Instant, b: Instant) {
    a.sec < b.sec || (a.sec == b.sec && a.nsec < b.nsec)
  }

  /** A JSON value as `encoding/json` decodes it into an `interface{}`: every
      number becomes a float64 (modelled as a real). */
  datatype Json =
    | JNull
    | JBool(b: bool)
    | JNumber(n: real)
    | JString(s: string)
    | JStructured          // an array or an object

  /** A decoded claim set (`jwt.MapClaims`). */
  type ClaimMap = map<string, Json>

  /** Go's conversion `int64(f)` of a float64: truncation toward zero, which
      drops the fractional part of an expiry. */
  function Truncate(r: real): (i: int)
    ensures 0.0 <= r ==> i as real <= r < i as real + 1.0
    ensures r < 0.0 ==> i as real - 1.0 < r <= i as real
  {
    if 0.0 <= r then r.Floor else -((-r).Floor)
  }

  /** A whole number of seconds survives the float64 round trip unchanged. */
  lemma TruncateWhole(i: int)
    ensures Truncate(i as real) == i
  {
    if i < 0 {
      assert Truncate(i as real) as real - 1.0 < i as real <= Truncate(i as real) as real;
    }
  }

  /** The fully typed projection of a claim set (`TokenClaims`). */
  datatype TokenClaims = TokenClaims(email: string, tokenType: TokenType, expiry: Instant, userID: string)
}

=== FILE: context.dfy ===
/** The request context the middleware reads and writes: gRPC incoming and
    outgoing metadata, and the typed values stored under context keys. */
module Context {
  import opened Results
  import opened ClaimTypes

  /** Logger levels (zerolog). */
  datatype Level = DebugLevel | InfoLevel | WarnLevel | ErrorLevel

  /** A logger as the factory configures it: its level and the correlation ID
      it stamps on every entry, if any. Output and timestamps are not modelled. */
  datatype Logger = Logger(level: Level, correlationID: Option<string>)

  /** gRPC metadata: each key maps to a list of values. */
  type MD = map<string, seq<string>>

  /** `md[key]`, empty when the key is absent. */
  function Values(md: MD, key: string): seq<string> {
    if key in md then md[key] else []
  }

  /** `metadata.New` of a one-entry map. (`New` also lower-cases keys; every
      key passed to it here is a lower-case literal.) */
  function NewMD(key: string, value: string): MD {
    map[key := [value]]
  }

  /** `metadata.Join`: per key, the values of `a` followed by those of `b`. */
  function Join(a: MD, b: MD): (r: MD)
    ensures r.Keys == a.Keys + b.Keys
    ensures forall k :: Values(r, k) == Values(a, k) + Values(b, k)
  {
    map k | k in a.Keys + b.Keys :: Values(a, k) + Values(b, k)
  }

  /** Keys of context values; each Go key type is distinct from the others. */
  datatype ContextKey = LoggerKey | ClaimsContextKey | JwtTokenKey | OtherKey(name: string)

  /** The dynamic type of a stored context value. */
  datatype ContextValue =
    | LoggerValue(logger: Logger)                       // implements Loggerer
    | TokenClaimsPointer(pointer: Option<TokenClaims>)  // *TokenClaims, possibly nil
    | OtherValue(goType: string)                        // anything else

  datatype Context = Context(incoming: Option<MD>, outgoing: Option<MD>, values: map<ContextKey, ContextValue>)

  /** `context.Background()`. */
  const Background: Context := Context(None, None, map[])

  /** `context.WithValue`. */
  function WithValue(ctx: Context, key: ContextKey, v: ContextValue): Context {
    ctx.(values := ctx.values[key := v])
  }

  /** `metadata.FromOutgoingContext`, with a missing one read as empty. */
  function OutgoingOrEmpty(ctx: Context): MD {
    if ctx.outgoing.Some? then ctx.outgoing.value else map[]
  }

  /** Join `md` onto the outgoing metadata (empty when absent), as both
      middleware helpers do. */
  function JoinOutgoing(ctx: Context, md: MD): (r: Context)
    ensures r.incoming == ctx.incoming && r.values == ctx.values && r.outgoing.Some?
    ensures forall k :: Values(r.outgoing.value, k) == Values(OutgoingOrEmpty(ctx), k) + Values(md, k)
    ensures r.outgoing.value.Keys == OutgoingOrEmpty(ctx).Keys + md.Keys
  {
    ctx.(outgoing := Some(Join(OutgoingOrEmpty(ctx), md)))
  }
}

=== FILE: crypto.dfy ===
/** Symbolic RSA key material and its DER and PEM encodings. Keys are names,
    not numbers: a private key is identified by `id`, and `PublicOf` gives the
    public half that belongs to it. DER and PEM are modelled by the structure a
    parser would recover, so every encoding decodes back to what was encoded. */
module Crypto {
  import opened Results
  import opened Errors

  datatype PrivateKey = PrivateKey(id: nat, bits: nat)

  datatype PublicKey = PublicKey(id: nat, bits: nat)

  /** `&privateKey.PublicKey`: the public half of a private key. */
  function PublicOf(k: PrivateKey): PublicKey {
    PublicKey(k.id, k.bits)
  }

  /** The modulus size `rsa.GenerateKey` is asked for. */
  const GeneratedKeyBits: nat := 2048

  /** `rsa.GenerateKey(rand.Reader, 2048)`. The random source is the parameter:
      `Some(seed)` names the key it yields, `None` is a reader that fails. */
  function GenerateKey(entropy: Option<nat>): (r: Result<PrivateKey, Error>)
    ensures r.Ok? <==> entropy.Some?
    ensures r.Ok? ==> r.value.bits == GeneratedKeyBits
  {
    match entropy
    case None => Err(EntropyUnavailable)
    case Some(seed) => Ok(PrivateKey(seed, GeneratedKeyBits))
  }

  /** The key types `x509.ParsePKIXPublicKey` can return. */
  datatype AnyPublicKey = RsaPublicKey(key: PublicKey) | EcdsaPublicKey(id: nat) | Ed25519PublicKey(id: nat)

  /** DER bytes, by the structure they hold. */
  datatype Der =
    | Pkcs1PrivateKey(privateKey: PrivateKey)   // PKCS #1 RSAPrivateKey
    | PkixPublicKey(publicKey: AnyPublicKey)    // X.509 SubjectPublicKeyInfo
    | OtherDer(raw: seq<int>)                   // anything else

  function MarshalPkcs1PrivateKey(k: PrivateKey): Der {
    Pkcs1PrivateKey(k)
  }

  /** `x509.MarshalPKIXPublicKey` of an RSA key; it cannot fail for one. */
  function MarshalPkixPublicKey(k: PublicKey): Der {
    PkixPublicKey(RsaPublicKey(k))
  }

  function ParsePkcs1PrivateKey(d: Der): (r: Result<PrivateKey, Error>)
    ensures r.Ok? <==> d.Pkcs1PrivateKey?
  {
    if d.Pkcs1PrivateKey? then Ok(d.privateKey) else Err(Asn1Invalid)
  }

  function ParsePkixPublicKey(d: Der): (r: Result<AnyPublicKey, Error>)
    ensures r.Ok? <==> d.PkixPublicKey?
  {
    if d.PkixPublicKey? then Ok(d.publicKey) else Err(Asn1Invalid)
  }

  /** A PEM block: its type and its DER body. */
  datatype PemBlock = PemBlock(blockType: string, der: Der)

  /** Text (a file's bytes or a Go string) by what `pem.Decode` finds in it:
      a block, or nothing. */
  datatype PemText = Armored(block: PemBlock) | Unarmored(text: string)

  /** `pem.EncodeToMemory`. */
  function EncodeToMemory(b: PemBlock): PemText {
    Armored(b)
  }

  /** `pem.Decode`; `None` is the nil block it returns for text without one. */
  function DecodePem(t: PemText): Option<PemBlock> {
    match t
    case Armored(b) => Some(b)
    case Unarmored(_) => None
  }

  // RSASSA-PKCS1-v1_5 signing (section 8.2 of RFC 8017) pads a DER DigestInfo;
  // section 9.2 of RFC 8017 requires the modulus to be at least 11 bytes longer
  // than that DigestInfo, which for SHA-256 is 19 bytes of prefix plus 32 of hash.
  const Sha256DigestInfoBytes: nat := 51
  const MinRs256ModulusBytes: nat := Sha256DigestInfoBytes + 11

  /** `priv.Size()`: the modulus length in bytes. */
  function ModulusBytes(k: PrivateKey): nat {
    (k.bits + 7) / 8
  }
}

=== FILE: errors.dfy ===
/** The error values of the JWT package, one constructor per distinct failure
    the Go code can return (or panic with). */
module Errors {

  /** The classes of file-system failure the key store tells apart. Only
      `NotExist` is singled out by the code (through `IsNotExist`). */
  datatype IoError =
    | NotExist
    | AlreadyExists
    | PermissionDenied
    | NoSpace
    | IsADirectory    // EISDIR: a file operation named a directory
    | NotADirectory   // ENOTDIR: a path runs through a regular file

  /** The step of `GetClaimsFromToken` whose failure is being wrapped, named by
      the prefix of the wrapping message. */
  datatype Step =
    | EmailStep   // "Error getting email from token: ..."
    | TypeStep    // "Error getting type claim from token: ..."
    | ExpiryStep  // "Error getting expiry claim from token: ..."

  /** The component whose message an error carries: the inspector's texts
      start "JWT Token ...", the verifier's "Token Verifier: JWT Token ...",
      the authenticator's "JWTAuthenticator: JWT Token ...". */
  datatype Component = Inspector | Verifier | Authenticator

  /** The registered time claims `jwt.MapClaims.Valid` checks, named by the
      message each failure carries. */
  datatype ClaimsCheck =
    | TokenExpired      // "Token is expired": "exp" is before the current second
    | UsedBeforeIssued  // "Token used before issued": "iat" is after it
    | NotValidYet       // "Token is not valid yet": "nbf" is after it

  datatype Error =
    // golang-jwt parsing
    | Malformed                            // segments, base64url or JSON do not decode
    | AlgUnspecified                       // the "alg" header is not a string
    | AlgUnavailable(alg: string)          // no signing method is registered for "alg"
    | UnexpectedSigningMethod(alg: string) // the verifier's key function refused the method
    | SignatureInvalid
    | ClaimsRejected(check: ClaimsCheck)   // the library's own time-claim validation
    // verifier and authenticator
    | NotValid(origin: Component)              // "... JWT Token is not valid"
    | Expired(origin: Component)               // "... JWT Token is expired"
    // claim getters
    | ClaimsNotMap(origin: Component)          // "... JWT Token claims are not valid"
    | ExpiryNotValid(origin: Component)        // "... JWT Token expiry is not valid"
    | EmailNotValid(origin: Component)         // "JWT Token email is not of valid type" (inspector),
                                           // "JWTAuthenticator: JWT Token email is not valid"
    | TypeNotValid                         // "JWT Token type is not of valid type"
    | While(step: Step, cause: Error)      // a GetClaimsFromToken wrapper
    // signer
    | InvalidClaimValueType(goType: string)
    | MessageTooLong                       // the RSA modulus is too short for the padded digest
    // key material and files
    | Io(io: IoError)
    | Asn1Invalid                          // DER that is not the expected key structure
    | EntropyUnavailable                   // the random source failed during key generation
    /** Not a returned error: the Go code panics here (nil dereference, failed
        type assertion, method call on a nil interface). */
    | Panic(reason: string)
}

=== FILE: file_system.dfy ===
/** The file-storage interface the key store uses (`fs.FileSystem`), over an
    explicit state: file contents, directories with their modes, paths the
    process may not touch, and whether the disk is full. */
module FileSystem {
  import opened Results
  import opened Errors
  import opened Crypto

  datatype Fs = Fs(files: map<string, PemText>, dirs: map<string, nat>, denied: set<string>, diskFull: bool)

  /** A state change together with the error (if any) it reported. */
  datatype Effect = Effect(fs: Fs, result: Result<(), Error>)

  /** `fmt.Sprintf("%s/%s", dir, name)`. */
  function PathJoin(dir: string, name: string): string {
    dir + "/" + name
  }

  /** `IsNotExist(err)`. */
  predicate IsNotExist(e: Error) {
    e == Io(NotExist)
  }

  /** `Stat(name)`: succeeds for any existing file or directory. */
  function Stat(fs: Fs, p: string): Result<(), Error> {
    if p in fs.denied then Err(Io(PermissionDenied))
    else if p in fs.dirs || p in fs.files then Ok(())
    else Err(Io(NotExist))
  }

  /** `Mkdir(name, perm)`. Parent directories are taken to exist. */
  function Mkdir(fs: Fs, p: string, perm: nat): Effect {
    if p in fs.denied then Effect(fs, Err(Io(PermissionDenied)))
    else if p in fs.dirs || p in fs.files then Effect(fs, Err(Io(AlreadyExists)))
    else if fs.diskFull then Effect(fs, Err(Io(NoSpace)))
    else Effect(fs.(dirs := fs.dirs[p := perm]), Ok(()))
  }

  /** Some regular file is a proper prefix directory of `p`, so the lookup
      of `p` runs through a file. */
  predicate UnderFile(fs: Fs, p: string) {
    exists f :: f in fs.files && f + "/" <= p
  }

  /** `ReadFile(name)`: a directory cannot be read as a file, and a path
      that runs through a file does not name anything. */
  function ReadFile(fs: Fs, p: string): (r: Result<PemText, Error>)
    ensures r.Ok? <==> p !in fs.denied && p !in fs.dirs && p in fs.files
    ensures r.Ok? ==> r.value == fs.files[p]
    ensures r == Err(Io(NotExist)) <==> p !in fs.denied && p !in fs.dirs && p !in fs.files && !UnderFile(fs, p)
  {
    if p in fs.denied then Err(Io(PermissionDenied))
    else if p in fs.dirs then Err(Io(IsADirectory))
    else if p in fs.files then Ok(fs.files[p])
    else if UnderFile(fs, p) then Err(Io(NotADirectory))
    else Err(Io(NotExist))
  }

  /** `Create(dir/name)`, one `Write` of `data`, then the deferred `Close`.
      Create truncates, so a failed write leaves an empty file behind. It
      cannot create a file inside a regular file, nor over a directory. */
  function CreateAndWrite(fs: Fs, dir: string, name: string, data: PemText): (r: Effect)
    ensures r.result.Ok? <==> dir in fs.dirs && PathJoin(dir, name) !in fs.denied && PathJoin(dir, name) !in fs.dirs
                              && !fs.diskFull
    ensures r.result.Ok? ==> r.fs == fs.(files := fs.files[PathJoin(dir, name) := data])
    ensures r.fs.dirs == fs.dirs && r.fs.denied == fs.denied && r.fs.diskFull == fs.diskFull
    ensures r.fs.files - {PathJoin(dir, name)} == fs.files - {PathJoin(dir, name)}
    ensures fs.files.Keys !! fs.dirs.Keys ==> r.fs.files.Keys !! r.fs.dirs.Keys
  {
    var p := PathJoin(dir, name);
    if dir !in fs.dirs then Effect(fs, Err(Io(if dir in fs.files then NotADirectory else NotExist)))
    else if p in fs.denied then Effect(fs, Err(Io(PermissionDenied)))
    else if p in fs.dirs then Effect(fs, Err(Io(IsADirectory)))
    else if fs.diskFull then Effect(fs.(files := fs.files[p := Unarmored("")]), Err(Io(NoSpace)))
    else Effect(fs.(files := fs.files[p := data]), Ok(()))
  }
}

=== FILE: integration.dfy ===
/** End-to-end properties across the key manager, signer, verifier and
    inspector: the integration scenario and the acceptance condition of a
    freshly signed token. */
module Integration {
  import opened Results
  import opened Errors
  import opened ClaimTypes
  import opened Crypto
  import opened JwtLibrary
  import opened TokenSigner
  import opened TokenInspector
  import opened TokenVerifier
  import opened FileSystem
  import opened KeyManager

  /** The claims the integration scenario signs. */
  function ScenarioClaims(email: string, expiry: Instant, userID: string): seq<ClaimPair> {
    [ ClaimPair(EmailClaim, StringValue(email)),
      ClaimPair(ExpiryClaim, TimeValue(expiry)),
      ClaimPair(TypeClaim, TokenTypeValue(AccessTokenType)),
      ClaimPair(UserIDClaim, StringValue(userID)) ]
  }

  /** A manager that generated its keys holds a matching pair that can sign. */
  lemma GeneratedManagerCanSign(disk: Fs, loc: string, e: Option<nat>)
    requires ReadFile(disk, PrivatePath(loc)) == Err(Io(NotExist))
    requires NewKeyManager(disk, loc, e).result.Ok?
    ensures var km := NewKeyManager(disk, loc, e).result.value;
      km.publicKey == PublicOf(km.privateKey) && MinRs256ModulusBytes <= ModulusBytes(km.privateKey)
  {
  }

  /** The library's time-claim checks pass for a signer-issued token whose
      caller claims leave "iat" and "nbf" alone, checked no earlier than the
      signing second and not after its expiry second. */
  lemma SignedClaimsPassLibrary(signer: TokenSigner, now: Instant, nonce: string,
                                claims: seq<ClaimPair>, i: nat, exp: Instant, later: Instant)
    requires SignToken(signer, now, nonce, claims).Ok?
    requires IssuedAtClaim !in KeysOf(claims) && NotBeforeClaim !in KeysOf(claims)
    requires IsLastFor(claims, i) && claims[i] == ClaimPair(ExpiryClaim, TimeValue(exp))
    requires now.sec <= later.sec
    ensures var p := SignToken(signer, now, nonce, claims).value.payload;
      && p[ExpiryClaim] == JNumber(exp.sec as real)
      && NotInFuture(p, IssuedAtClaim, later.sec)
      && NotInFuture(p, NotBeforeClaim, later.sec)
      && (ExpiryPasses(p, later.sec) <==> exp.sec == 0 || later.sec <= exp.sec)
  {
    var p := SignToken(signer, now, nonce, claims).value.payload;
    assert p == ApplyClaims(Seed(now, nonce), claims).value;
    LastClaimWins(Seed(now, nonce), claims, i);
    UntouchedKeysKeepValue(Seed(now, nonce), claims, IssuedAtClaim);
    TruncateWhole(exp.sec);
    TruncateWhole(now.sec);
  }

  /** The payload the integration scenario signs: each claim under its own
      key, and the library's time checks pass from the signing second up to
      the expiry second. */
  lemma ScenarioPayload(signer: TokenSigner, now: Instant, nonce: string, email: string,
                        expiry: Instant, userID: string, later: Instant)
    requires MinRs256ModulusBytes <= ModulusBytes(signer.rsaPrivateKey)
    requires now.sec <= later.sec
    requires !Before(FromUnix(expiry.sec), later)
    ensures var s := SignToken(signer, now, nonce, ScenarioClaims(email, expiry, userID));
      && s.Ok?
      && EmailClaim in s.value.payload && s.value.payload[EmailClaim] == JString(email)
      && TypeClaim in s.value.payload && s.value.payload[TypeClaim] == JString(AccessTokenType.name)
      && ExpiryClaim in s.value.payload && s.value.payload[ExpiryClaim] == JNumber(expiry.sec as real)
      && UserIDClaim in s.value.payload && s.value.payload[UserIDClaim] == JString(userID)
      && ValidateClaims(s.value.payload, later.sec).None?
  {
    var claims := ScenarioClaims(email, expiry, userID);
    assert AllSupported(claims);
    var p := ApplyClaims(Seed(now, nonce), claims).value;
    assert SignToken(signer, now, nonce, claims).value.payload == p;
    LastClaimWins(Seed(now, nonce), claims, 0);
    LastClaimWins(Seed(now, nonce), claims, 2);
    LastClaimWins(Seed(now, nonce), claims, 3);
    assert KeysOf(claims) == {EmailClaim, ExpiryClaim, TypeClaim, UserIDClaim} by {
      assert claims[0].key == EmailClaim && claims[1].key == ExpiryClaim;
      assert claims[2].key == TypeClaim && claims[3].key == UserIDClaim;
    }
    SignedClaimsPassLibrary(signer, now, nonce, claims, 1, expiry, later);
    TruncateWhole(expiry.sec);
  }

  /** Sign, export the public key as PEM, build a verifier from it, verify
      no earlier than the signing second and before the expiry, inspect: the
      email, type and user id come back unchanged and the expiry comes back
      as its whole second. */
  lemma SignVerifyInspectRoundTrip(km: KeyManager, now: Instant, nonce: string, email: string,
                                  expiry: Instant, userID: string, later: Instant)
    requires km.publicKey == PublicOf(km.privateKey)
    requires MinRs256ModulusBytes <= ModulusBytes(km.privateKey)
    requires now.sec <= later.sec
    requires !Before(FromUnix(expiry.sec), later)
    ensures var s := SignToken(TokenSigner(GetRsaPrivateKey(km)), now, nonce, ScenarioClaims(email, expiry, userID));
      var v := NewTokenVerifier(GetPublicKey(km).value);
      && s.Ok? && v.Ok?
      && Verify(v.value, s.value, later).Ok?
      && GetClaimsFromToken(Verify(v.value, s.value, later).value)
         == Ok(TokenClaims(email, AccessTokenType, FromUnix(expiry.sec), userID))
  {
    var signer := TokenSigner(GetRsaPrivateKey(km));
    ScenarioPayload(signer, now, nonce, email, expiry, userID, later);
    var s := SignToken(signer, now, nonce, ScenarioClaims(email, expiry, userID));
    var v := NewTokenVerifier(GetPublicKey(km).value);
    assert v.value.publicKey == km.publicKey;
    var t := Verify(v.value, s.value, later);
    TruncateWhole(expiry.sec);
    assert t.Ok?;
    ExpiryOfWholeSeconds(t.value, ExpiryClaim, expiry.sec);
  }

  /** A token fresh from the signer whose last "exp" claim is the time `exp`,
      checked no earlier than its signing second, is accepted exactly by the
      matching public key and exactly while `exp`'s whole second is not
      before the current time. A foreign key is reported as a bad
      signature. A stale expiry is reported by the library's own check,
      except within the expiry second itself (or for a zero expiry, which
      the library treats as unset), where the verifier reports it. */
  lemma SignedTokenAcceptance(signer: TokenSigner, now: Instant, nonce: string, claims: seq<ClaimPair>,
                              i: nat, exp: Instant, pub: PublicKey, later: Instant)
    requires SignToken(signer, now, nonce, claims).Ok?
    requires IssuedAtClaim !in KeysOf(claims) && NotBeforeClaim !in KeysOf(claims)
    requires IsLastFor(claims, i) && claims[i] == ClaimPair(ExpiryClaim, TimeValue(exp))
    requires now.sec <= later.sec
    ensures var r := VerifyWith(VerifierChecker, pub, SignToken(signer, now, nonce, claims).value, later);
      && (r.Ok? <==> pub == PublicOf(signer.rsaPrivateKey) && !Before(FromUnix(exp.sec), later))
      && (pub != PublicOf(signer.rsaPrivateKey) ==> r == Err(SignatureInvalid))
      && ((pub == PublicOf(signer.rsaPrivateKey) && Before(FromUnix(exp.sec), later))
          ==> r == Err(if exp.sec != 0 && exp.sec < later.sec then ClaimsRejected(TokenExpired) else Expired(Verifier)))
  {
    SignedClaimsPassLibrary(signer, now, nonce, claims, i, exp, later);
    TruncateWhole(exp.sec);
  }

  /** A token checked before the second it was signed in is refused by the
      library's "iat" check, whatever its expiry. */
  lemma VerifiedBeforeIssueIsRejected(signer: TokenSigner, now: Instant, nonce: string,
                                      claims: seq<ClaimPair>, later: Instant)
    requires SignToken(signer, now, nonce, claims).Ok?
    requires IssuedAtClaim !in KeysOf(claims) && NotBeforeClaim !in KeysOf(claims)
    requires now.sec != 0 && later.sec < now.sec
    ensures VerifyWith(VerifierChecker, PublicOf(signer.rsaPrivateKey), SignToken(signer, now, nonce, claims).value, later)
            == Err(ClaimsRejected(UsedBeforeIssued))
  {
    var p := SignToken(signer, now, nonce, claims).value.payload;
    assert p == ApplyClaims(Seed(now, nonce), claims).value;
    UntouchedKeysKeepValue(Seed(now, nonce), claims, IssuedAtClaim);
    TruncateWhole(now.sec);
    assert !NotInFuture(p, IssuedAtClaim, later.sec);
  }

  /** The concrete case: signed at second 100 with expiry 200, checked at
      second 50. */
  lemma EarlyCheckExample()
    ensures var signer := TokenSigner(PrivateKey(1, GeneratedKeyBits));
      var s := SignToken(signer, Instant(100, 0), "n", ScenarioClaims("a@b.c", Instant(200, 0), "u"));
      && s.Ok?
      && VerifyWith(VerifierChecker, PublicOf(signer.rsaPrivateKey), s.value, Instant(50, 0))
         == Err(ClaimsRejected(UsedBeforeIssued))
  {
    var signer := TokenSigner(PrivateKey(1, GeneratedKeyBits));
    var claims := ScenarioClaims("a@b.c", Instant(200, 0), "u");
    assert AllSupported(claims);
    assert ModulusBytes(signer.rsaPrivateKey) == 256;
    assert IssuedAtClaim !in KeysOf(claims) && NotBeforeClaim !in KeysOf(claims) by {
      forall j | 0 <= j < |claims| ensures claims[j].key != IssuedAtClaim && claims[j].key != NotBeforeClaim {
      }
    }
    VerifiedBeforeIssueIsRejected(signer, Instant(100, 0), "n", claims, Instant(50, 0));
  }
}

=== FILE: jwt_authenticator.dfy ===
/** The older `JWTAuthenticator`: the same decision as `TokenVerifier`, but the
    expiry is read from the key "expiry", and only the email and expiry
    getters exist. */
module JwtAuthenticator {
  import opened Results
  import opened Errors
  import ClaimTypes
  import opened Crypto
  import opened JwtLibrary
  import TokenInspector
  import TokenVerifier

  const EmailClaim: string := "email"
  const ExpiryClaim: string := "expiry"

  datatype JwtAuthenticator = JwtAuthenticator(publicKey: PublicKey)

  /** The authenticator reads "expiry" itself and reports every failure with
      its own "JWTAuthenticator: " messages. */
  const AuthenticatorChecker: TokenVerifier.Checker := TokenVerifier.Checker(ExpiryClaim, Authenticator, Authenticator)

  /** `NewJWTAuthenticator`; its `loadPublicKeyFromString` is a copy of the
      verifier's. */
  function NewJwtAuthenticator(publicKeyString: PemText): (r: Result<JwtAuthenticator, Error>)
    ensures r.Ok? <==> TokenVerifier.LoadPublicKeyFromString(publicKeyString).Ok?
    ensures r.Ok? ==> r.value.publicKey == TokenVerifier.LoadPublicKeyFromString(publicKeyString).value
  {
    var key :- TokenVerifier.LoadPublicKeyFromString(publicKeyString);
    Ok(JwtAuthenticator(key))
  }

  function VerifyToken(a: JwtAuthenticator, s: Jws, now: ClaimTypes.Instant): (r: Result<Token, Error>)
    ensures r.Ok? <==> TokenVerifier.Accepts(ExpiryClaim, a.publicKey, s, now)
    ensures r.Ok? ==> TokenInspector.HasNumber(s.payload, ExpiryClaim)
  {
    TokenVerifier.VerifyWith(AuthenticatorChecker, a.publicKey, s, now)
  }

  function GetExpiryFromToken(t: Token): (r: Result<ClaimTypes.Instant, Error>)
    ensures r.Ok? <==> t.claims.MapClaims? && TokenInspector.HasNumber(t.claims.m, ExpiryClaim)
    ensures r.Ok? ==> r.value == ClaimTypes.FromUnix(ClaimTypes.Truncate(t.claims.m[ExpiryClaim].n))
    ensures !t.claims.MapClaims? ==> r == Err(ClaimsNotMap(Authenticator))
    ensures t.claims.MapClaims? && r.Err? ==> r.error == ExpiryNotValid(Authenticator)
  {
    TokenInspector.ExpiryUnder(t, ExpiryClaim, Authenticator)
  }

  function GetEmailFromToken(t: Token): (r: Result<string, Error>)
    ensures r.Ok? <==> t.claims.MapClaims? && TokenInspector.HasString(t.claims.m, EmailClaim)
    ensures r.Ok? ==> r.value == t.claims.m[EmailClaim].s
    ensures !t.claims.MapClaims? ==> r == Err(ClaimsNotMap(Authenticator))
    ensures t.claims.MapClaims? && r.Err? ==> r.error == EmailNotValid(Authenticator)
  {
    TokenInspector.StringClaim(t, EmailClaim, Authenticator, EmailNotValid(Authenticator))
  }

  /** A token that carries its expiry only under "exp" (as the current signer
      and verifier expect) is rejected by the authenticator, whatever the
      time, even when its signature is good. */
  lemma ExpOnlyTokenIsRejected(a: JwtAuthenticator, s: Jws, now: ClaimTypes.Instant)
    requires s.Compact? && ExpiryClaim !in s.payload
    ensures VerifyToken(a, s, now).Err?
    ensures (&& ParseUnverified(s).Ok? && SignatureVerifies(ParseUnverified(s).value.signingMethod, a.publicKey, s)
             && ValidateClaims(s.payload, now.sec).None?)
      ==> VerifyToken(a, s, now) == Err(ExpiryNotValid(Authenticator))
  {
  }

  /** Both getters fail on a token whose claims are not a map, with the
      authenticator's message rather than the inspector's. */
  lemma GettersRejectNonMapClaims(t: Token)
    requires !t.claims.MapClaims?
    ensures GetExpiryFromToken(t) == Err(ClaimsNotMap(Authenticator))
    ensures GetEmailFromToken(t) == Err(ClaimsNotMap(Authenticator))
    ensures GetExpiryFromToken(t) != TokenInspector.GetExpiryFromToken(t)
  {
  }

  /** The email getter accepts exactly a string. */
  lemma EmailMustBeString(t: Token)
    requires t.claims.MapClaims?
    ensures GetEmailFromToken(t).Ok? <==> EmailClaim in t.claims.m && t.claims.m[EmailClaim].JString?
    ensures GetEmailFromToken(t).Err? ==> GetEmailFromToken(t).error == EmailNotValid(Authenticator)
  {
  }
}

=== FILE: jwt_library.dfy ===
/** The parts of golang-jwt the core calls: token construction, RS256 signing,
    parsing with and without signature verification. Signatures are symbolic:
    a PKCS #1 v1.5 signature records the hash, the public half of the key that
    produced it and the exact header and payload it covers. */
module JwtLibrary {
  import opened Results
  import opened Errors
  import opened ClaimTypes
  import opened Crypto

  /** The JOSE header fields golang-jwt writes ("typ") and reads ("alg"). */
  datatype Header = Header(typ: Json, alg: Json)

  datatype Signature =
    | Pkcs1Signature(hashBits: nat, signer: PublicKey, header: Header, payload: ClaimMap)
    | OpaqueSignature(raw: string)

  /** A token string: three dot-separated segments whose header and payload
      decode to JSON objects, or text that does not parse as one. */
  datatype Jws = Compact(header: Header, payload: ClaimMap, signature: Signature) | Garbled(text: string)

  /** The Go types of the signing methods golang-jwt registers. */
  datatype Method =
    | Rsa(hashBits: nat)     // *SigningMethodRSA: RS256, RS384, RS512
    | RsaPss(hashBits: nat)  // *SigningMethodRSAPSS: PS256, PS384, PS512
    | Hmac(hashBits: nat)    // HS256, HS384, HS512
    | Ecdsa(hashBits: nat)   // ES256, ES384, ES512
    | EdDsa                  // EdDSA
    | Unsigned               // "none"

  /** `jwt.GetSigningMethod`: the registry lookup by "alg" name. */
  function GetSigningMethod(alg: string): Option<Method> {
    if alg == "RS256" then Some(Rsa(256))
    else if alg == "RS384" then Some(Rsa(384))
    else if alg == "RS512" then Some(Rsa(512))
    else if alg == "PS256" then Some(RsaPss(256))
    else if alg == "PS384" then Some(RsaPss(384))
    else if alg == "PS512" then Some(RsaPss(512))
    else if alg == "HS256" then Some(Hmac(256))
    else if alg == "HS384" then Some(Hmac(384))
    else if alg == "HS512" then Some(Hmac(512))
    else if alg == "ES256" then Some(Ecdsa(256))
    else if alg == "ES384" then Some(Ecdsa(384))
    else if alg == "ES512" then Some(Ecdsa(512))
    else if alg == "EdDSA" then Some(EdDsa)
    else if alg == "none" then Some(Unsigned)
    else None
  }

  /** The claims a parsed token carries: a `jwt.MapClaims`, or some other
      `jwt.Claims` implementation. */
  datatype ClaimSet = MapClaims(m: ClaimMap) | OtherClaims

  /** A parsed `*jwt.Token`. */
  datatype Token = Token(signingMethod: Method, header: Header, claims: ClaimSet, signature: Signature, valid: bool)

  /** The header `jwt.NewWithClaims(jwt.SigningMethodRS256, ...)` writes. */
  function NewRs256Header(): Header {
    Header(JString("JWT"), JString("RS256"))
  }

  /** The signature check of a method against a key. Only the RSA PKCS #1 v1.5
      methods can succeed with an RSA public key, and only for a signature by
      the matching private key over this very header and payload. */
  predicate SignatureVerifies(m: Method, key: PublicKey, s: Jws) {
    && s.Compact?
    && m.Rsa?
    && s.signature.Pkcs1Signature?
    && s.signature.hashBits == m.hashBits
    && s.signature.signer == key
    && s.signature.header == s.header
    && s.signature.payload == s.payload
  }

  /** `token.SignedString(privateKey)` for RS256. */
  function SignRs256(header: Header, payload: ClaimMap, k: PrivateKey): (r: Result<Jws, Error>)
    ensures r.Ok? <==> MinRs256ModulusBytes <= ModulusBytes(k)
    ensures r.Err? ==> r.error == MessageTooLong
    ensures r.Ok? ==> r.value.Compact? && r.value.header == header && r.value.payload == payload
    ensures r.Ok? ==> SignatureVerifies(Rsa(256), PublicOf(k), r.value)
  {
    if ModulusBytes(k) < MinRs256ModulusBytes then Err(MessageTooLong)
    else Ok(Compact(header, payload, Pkcs1Signature(256, PublicOf(k), header, payload)))
  }

  /** `new(jwt.Parser).ParseUnverified(s, jwt.MapClaims{})`: decodes the
      segments and looks the signing method up, checking no signature. */
  function ParseUnverified(s: Jws): (r: Result<Token, Error>)
    ensures r.Ok? <==> s.Compact? && s.header.alg.JString? && GetSigningMethod(s.header.alg.s).Some?
    ensures r.Ok? ==> r.value == Token(GetSigningMethod(s.header.alg.s).value, s.header, MapClaims(s.payload), s.signature, false)
  {
    match s
    case Garbled(_) => Err(Malformed)
    case Compact(h, p, sig) =>
      if !h.alg.JString? then Err(AlgUnspecified)
      else
        match GetSigningMethod(h.alg.s)
        case None => Err(AlgUnavailable(h.alg.s))
        case Some(m) => Ok(Token(m, h, MapClaims(p), sig, false))
  }

  /** The registered "not before" claim (section 4.1.5 of RFC 7519); the
      core never writes it, but the library checks it on every parse. */
  const NotBeforeClaim: string := "nbf"

  /** `MapClaims.VerifyExpiresAt(now, false)`: an absent "exp" passes; a
      present one must be a number, whose int64 truncation is zero (treated
      as unset) or not before the current second. */
  predicate ExpiryPasses(m: ClaimMap, now: int) {
    ExpiryClaim !in m
    || (m[ExpiryClaim].JNumber? && (Truncate(m[ExpiryClaim].n) == 0 || now <= Truncate(m[ExpiryClaim].n)))
  }

  /** `VerifyIssuedAt` / `VerifyNotBefore(now, false)`: an absent claim passes;
      a present one must be a number, zero or not after the current second. */
  predicate NotInFuture(m: ClaimMap, key: string, now: int) {
    key !in m
    || (m[key].JNumber? && (Truncate(m[key].n) == 0 || Truncate(m[key].n) <= now))
  }

  /** `MapClaims.Valid()` at Unix second `now`. All three checks run in turn
      and each failure overwrites the message of the one before, so the
      reported check is the last failing one. */
  function ValidateClaims(m: ClaimMap, now: int): (r: Option<ClaimsCheck>)
    ensures r.None? <==> ExpiryPasses(m, now) && NotInFuture(m, IssuedAtClaim, now) && NotInFuture(m, NotBeforeClaim, now)
    ensures r == Some(NotValidYet) <==> !NotInFuture(m, NotBeforeClaim, now)
    ensures r == Some(UsedBeforeIssued) <==> NotInFuture(m, NotBeforeClaim, now) && !NotInFuture(m, IssuedAtClaim, now)
    ensures r == Some(TokenExpired) <==> && NotInFuture(m, NotBeforeClaim, now) && NotInFuture(m, IssuedAtClaim, now)
                                          && !ExpiryPasses(m, now)
  {
    var afterExp := if !ExpiryPasses(m, now) then Some(TokenExpired) else None;
    var afterIat := if !NotInFuture(m, IssuedAtClaim, now) then Some(UsedBeforeIssued) else afterExp;
    if !NotInFuture(m, NotBeforeClaim, now) then Some(NotValidYet) else afterIat
  }

  /** `jwt.Parse(s, keyFunc)` at Unix second `now`: parse, ask the key function
      for a key, validate the time claims, check the signature; on success the
      token is marked Valid. A claims failure and a signature failure are
      both recorded, and the signature's message is the one reported. */
  function Parse(s: Jws, keyFunc: Token -> Result<PublicKey, Error>, now: int): (r: Result<Token, Error>)
    ensures ParseUnverified(s).Err? ==> r == Err(ParseUnverified(s).error)
    ensures ParseUnverified(s).Ok? ==> var t := ParseUnverified(s).value;
      && (keyFunc(t).Err? ==> r == Err(keyFunc(t).error))
      && (keyFunc(t).Ok? ==>
            && (r.Ok? <==> SignatureVerifies(t.signingMethod, keyFunc(t).value, s) && ValidateClaims(s.payload, now).None?)
            && (!SignatureVerifies(t.signingMethod, keyFunc(t).value, s) ==> r == Err(SignatureInvalid))
            && ((SignatureVerifies(t.signingMethod, keyFunc(t).value, s) && ValidateClaims(s.payload, now).Some?)
                  ==> r == Err(ClaimsRejected(ValidateClaims(s.payload, now).value))))
    ensures r.Ok? ==> ParseUnverified(s).Ok? && r.value == ParseUnverified(s).value.(valid := true)
  {
    var t :- ParseUnverified(s);
    var key :- keyFunc(t);
    var claimsError := ValidateClaims(t.claims.m, now);
    if !SignatureVerifies(t.signingMethod, key, s) then Err(SignatureInvalid)
    else if claimsError.Some? then Err(ClaimsRejected(claimsError.value))
    else Ok(t.(valid := true))
  }
}

=== FILE: jwt_middleware.dfy ===
/** The JWT package's context helpers: attach a bearer token to outgoing
    metadata, and read back the claims an interceptor stored. */
module JwtMiddleware {
  import opened Results
  import opened ClaimTypes
  import opened Context

  const AuthorizationKey: string := "authorization"
  const BearerPrefix: string := "Bearer "
  const ClaimsNotFound: string := "Claims not found in context"

  /** `AddAuthorizationMetadataToContext`: the outgoing metadata gains
      `"Bearer " + token` under "authorization"; every existing entry stays. */
  function AddAuthorizationMetadataToContext(ctx: Context, token: string): (r: Context)
    ensures r.incoming == ctx.incoming && r.values == ctx.values && r.outgoing.Some?
    ensures Values(r.outgoing.value, AuthorizationKey) == Values(OutgoingOrEmpty(ctx), AuthorizationKey) + [BearerPrefix + token]
    ensures forall k :: k != AuthorizationKey ==> Values(r.outgoing.value, k) == Values(OutgoingOrEmpty(ctx), k)
    ensures OutgoingOrEmpty(ctx).Keys + {AuthorizationKey} == r.outgoing.value.Keys
  {
    JoinOutgoing(ctx, NewMD(AuthorizationKey, BearerPrefix + token))
  }

  /** `GetClaimsFromContext`: succeeds exactly when a `*TokenClaims` is stored
      under the claims key (a typed nil pointer included). */
  function GetClaimsFromContext(ctx: Context): (r: Result<Option<TokenClaims>, string>)
    ensures r.Ok? <==> ClaimsContextKey in ctx.values && ctx.values[ClaimsContextKey].TokenClaimsPointer?
    ensures r.Ok? ==> r.value == ctx.values[ClaimsContextKey].pointer
    ensures r.Err? ==> r.error == ClaimsNotFound
  {
    if ClaimsContextKey in ctx.values && ctx.values[ClaimsContextKey].TokenClaimsPointer? then
      Ok(ctx.values[ClaimsContextKey].pointer)
    else Err(ClaimsNotFound)
  }

  /** Claims stored by an interceptor are read back unchanged. */
  lemma StoredClaimsAreFound(ctx: Context, claims: TokenClaims)
    ensures GetClaimsFromContext(WithValue(ctx, ClaimsContextKey, TokenClaimsPointer(Some(claims)))) == Ok(Some(claims))
  {
  }
}

=== FILE: key_manager.dfy ===
/** `KeyManager`: the RSA key pair's life cycle over the file store. A manager
    is loaded from `<location>/private.pem` and `<location>/public.pem`, or,
    when the private file does not exist, generated and written there. */
module KeyManager {
  import opened Results
  import opened Errors
  import opened Crypto
  import opened FileSystem
  import TokenVerifier

  const PublicKeyFileName: string := "public.pem"
  const PrivateKeyFileName: string := "private.pem"
  const PublicKeyType: string := "RSA PUBLIC KEY"
  const PrivateKeyType: string := "RSA PRIVATE KEY"
  /** Octal 0700: owner-only access to the keys directory. */
  const KeysDirMode: nat := 448

  /** The manager's `fs` field: the OS file system, or a nil interface. */
  datatype FsHandle = OsFileSystem | NilFileSystem

  datatype KeyManager = KeyManager(fileLocation: string, privateKey: PrivateKey, publicKey: PublicKey, fs: FsHandle)

  datatype KeyPair = KeyPair(privateKey: PrivateKey, publicKey: PublicKey)

  /** A result together with the file-store state after the call. */
  datatype Outcome<T> = Outcome(fs: Fs, result: Result<T, Error>)

  /** The outcome of `GenerateNewKeyPair` on the manager. */
  datatype Rotation = Rotation(manager: KeyManager, fs: Fs, result: Result<(), Error>)

  const NilFsPanic: string := "method call on a nil fs.FileSystem"

  function PrivatePath(loc: string): string {
    PathJoin(loc, PrivateKeyFileName)
  }

  function PublicPath(loc: string): string {
    PathJoin(loc, PublicKeyFileName)
  }

  /** What `savePrivateKeyToFile` writes. */
  function PrivateKeyPem(k: PrivateKey): PemText {
    EncodeToMemory(PemBlock(PrivateKeyType, MarshalPkcs1PrivateKey(k)))
  }

  /** What `savePublicKeyToFile` writes and `GetPublicKey` returns. */
  function PublicKeyPem(k: PublicKey): PemText {
    EncodeToMemory(PemBlock(PublicKeyType, MarshalPkixPublicKey(k)))
  }

  lemma KeyPathsDiffer(loc: string)
    ensures PrivatePath(loc) != PublicPath(loc)
  {
    assert PrivatePath(loc)[|loc| + 2] != PublicPath(loc)[|loc| + 2];
  }

  /** `createKeysFolderIfNotExists`: the directory is made, with mode 0700,
      only when `Stat` reports that it does not exist. The older
      authenticator's copy of this function does the same with `os`. */
  function CreateKeysFolderIfNotExists(h: FsHandle, disk: Fs, loc: string): (o: Outcome<()>)
    ensures h == NilFileSystem ==> o == Outcome(disk, Err(Panic(NilFsPanic)))
    ensures o.fs.files == disk.files && o.fs.denied == disk.denied && o.fs.diskFull == disk.diskFull
    ensures o.fs.dirs.Keys <= disk.dirs.Keys + {loc}
    ensures forall d :: d in disk.dirs ==> d in o.fs.dirs && o.fs.dirs[d] == disk.dirs[d]
    ensures o.fs != disk ==> Stat(disk, loc) == Err(Io(NotExist)) && o.fs.dirs[loc] == KeysDirMode
    ensures h == OsFileSystem && Stat(disk, loc) == Err(Io(NotExist)) ==> (o.result.Ok? <==> !disk.diskFull)
    ensures o.result.Ok? && Stat(disk, loc) == Err(Io(NotExist)) ==> loc in o.fs.dirs
    ensures h == OsFileSystem && Stat(disk, loc) != Err(Io(NotExist)) ==> o == Outcome(disk, Ok(()))
  {
    if h == NilFileSystem then Outcome(disk, Err(Panic(NilFsPanic)))
    else if Stat(disk, loc).Err? && IsNotExist(Stat(disk, loc).error) then
      var e := Mkdir(disk, loc, KeysDirMode);
      Outcome(e.fs, e.result)
    else Outcome(disk, Ok(()))
  }

  /** `generateKeyPair`: the public key is the private key's public half. */
  function GenerateKeyPair(entropy: Option<nat>): (r: Result<KeyPair, Error>)
    ensures r.Ok? <==> entropy.Some?
    ensures r.Ok? ==> r.value.publicKey == PublicOf(r.value.privateKey)
    ensures r.Ok? ==> r.value.privateKey.bits == GeneratedKeyBits
    ensures r.Ok? ==> r.value.privateKey == GenerateKey(entropy).value
  {
    var k :- GenerateKey(entropy);
    Ok(KeyPair(k, PublicOf(k)))
  }

  function SavePrivateKeyToFile(disk: Fs, k: PrivateKey, loc: string): (r: Effect)
    ensures r.result.Ok? <==> loc in disk.dirs && PrivatePath(loc) !in disk.denied && PrivatePath(loc) !in disk.dirs
                              && !disk.diskFull
    ensures r.result.Ok? ==> r.fs.files == disk.files[PrivatePath(loc) := PrivateKeyPem(k)]
    ensures r.fs.files - {PrivatePath(loc)} == disk.files - {PrivatePath(loc)}
  {
    CreateAndWrite(disk, loc, PrivateKeyFileName, PrivateKeyPem(k))
  }

  function SavePublicKeyToFile(disk: Fs, k: PublicKey, loc: string): (r: Effect)
    ensures r.result.Ok? <==> loc in disk.dirs && PublicPath(loc) !in disk.denied && PublicPath(loc) !in disk.dirs
                              && !disk.diskFull
    ensures r.result.Ok? ==> r.fs.files == disk.files[PublicPath(loc) := PublicKeyPem(k)]
    ensures r.fs.files - {PublicPath(loc)} == disk.files - {PublicPath(loc)}
  {
    CreateAndWrite(disk, loc, PublicKeyFileName, PublicKeyPem(k))
  }

  /** `loadPrivateKeyFromFile`: read errors are returned as they are (so a
      missing file stays recognisable as not-exist); a file without a PEM
      block panics on the nil block. */
  function LoadPrivateKeyFromFile(disk: Fs, path: string): (r: Result<PrivateKey, Error>)
    ensures r.Ok? <==> ReadFile(disk, path).Ok? && disk.files[path].Armored? && disk.files[path].block.der.Pkcs1PrivateKey?
    ensures r.Ok? ==> r.value == disk.files[path].block.der.privateKey
    ensures ReadFile(disk, path).Err? ==> r == Err(ReadFile(disk, path).error)
    ensures ReadFile(disk, path).Ok? && r.Err? ==> !IsNotExist(r.error)
    ensures ReadFile(disk, path).Ok? && disk.files[path].Unarmored? ==> r.Err? && r.error.Panic?
  {
    var text :- ReadFile(disk, path);
    match DecodePem(text)
    case None => Err(Panic("nil PEM block dereferenced"))
    case Some(block) => ParsePkcs1PrivateKey(block.der)
  }

  /** `loadPublicKeyFromFile`: like `loadPublicKeyFromString` after the read. */
  function LoadPublicKeyFromFile(disk: Fs, path: string): (r: Result<PublicKey, Error>)
    ensures ReadFile(disk, path).Err? ==> r == Err(ReadFile(disk, path).error)
    ensures ReadFile(disk, path).Ok? ==> r == TokenVerifier.LoadPublicKeyFromString(disk.files[path])
  {
    var text :- ReadFile(disk, path);
    TokenVerifier.LoadPublicKeyFromString(text)
  }

  /** `generateKeyFiles`: the directory step's error is ignored; the private
      file is written before the public one, and the first failure ends the
      call with no keys. */
  function GenerateKeyFiles(h: FsHandle, disk: Fs, loc: string, entropy: Option<nat>): (o: Outcome<KeyPair>)
    ensures h == NilFileSystem ==> o == Outcome(disk, Err(Panic(NilFsPanic)))
    ensures o.result.Ok? ==> && o.result.value.publicKey == PublicOf(o.result.value.privateKey)
                             && o.result.value.privateKey.bits == GeneratedKeyBits
    ensures o.result.Ok? ==> GenerateKey(entropy).Ok? && o.result.value.privateKey == GenerateKey(entropy).value
    ensures o.result.Ok? ==> && o.fs.files == disk.files[PrivatePath(loc) := PrivateKeyPem(o.result.value.privateKey)]
                                                        [PublicPath(loc) := PublicKeyPem(o.result.value.publicKey)]
    ensures o.result.Ok? <==> && h == OsFileSystem && entropy.Some?
                              && (loc in disk.dirs || Stat(disk, loc) == Err(Io(NotExist)))
                              && PrivatePath(loc) !in disk.denied && PublicPath(loc) !in disk.denied
                              && PrivatePath(loc) !in disk.dirs && PublicPath(loc) !in disk.dirs
                              && !disk.diskFull
  {
    if h == NilFileSystem then Outcome(disk, Err(Panic(NilFsPanic)))
    else
      var dir := CreateKeysFolderIfNotExists(h, disk, loc);
      var d1 := dir.fs;
      match GenerateKeyPair(entropy)
      case Err(e) => Outcome(d1, Err(e))
      case Ok(pair) =>
        var w1 := SavePrivateKeyToFile(d1, pair.privateKey, loc);
        if w1.result.Err? then Outcome(w1.fs, Err(w1.result.error))
        else
          var w2 := SavePublicKeyToFile(w1.fs, pair.publicKey, loc);
          if w2.result.Err? then Outcome(w2.fs, Err(w2.result.error))
          else Outcome(w2.fs, Ok(pair))
  }

  /** `NewKeyManager`, as written: the load path builds the manager with an
      empty location and a nil file system. */
  function NewKeyManager(disk: Fs, loc: string, entropy: Option<nat>): (o: Outcome<KeyManager>)
    ensures ReadFile(disk, PrivatePath(loc)) == Err(Io(NotExist)) ==>
      var g := GenerateKeyFiles(OsFileSystem, disk, loc, entropy);
      && o.fs == g.fs && (o.result.Ok? <==> g.result.Ok?)
      && (g.result.Err? ==> o.result == Err(g.result.error))
      && (o.result.Ok? ==> o.result.value == KeyManager(loc, g.result.value.privateKey, g.result.value.publicKey, OsFileSystem))
    ensures ReadFile(disk, PrivatePath(loc)) != Err(Io(NotExist)) ==> o.fs == disk
    ensures LoadPrivateKeyFromFile(disk, PrivatePath(loc)).Err? && !IsNotExist(LoadPrivateKeyFromFile(disk, PrivatePath(loc)).error)
      ==> o == Outcome(disk, Err(LoadPrivateKeyFromFile(disk, PrivatePath(loc)).error))
    ensures LoadPrivateKeyFromFile(disk, PrivatePath(loc)).Ok? && LoadPublicKeyFromFile(disk, PublicPath(loc)).Err?
      ==> o.result == Err(LoadPublicKeyFromFile(disk, PublicPath(loc)).error)
    ensures LoadPrivateKeyFromFile(disk, PrivatePath(loc)).Ok? ==>
      && (o.result.Ok? <==> LoadPublicKeyFromFile(disk, PublicPath(loc)).Ok?)
      && (o.result.Ok? ==> o.result.value == KeyManager("", LoadPrivateKeyFromFile(disk, PrivatePath(loc)).value,
                                                      LoadPublicKeyFromFile(disk, PublicPath(loc)).value, NilFileSystem))
  {
    match LoadPrivateKeyFromFile(disk, PrivatePath(loc))
    case Err(e) =>
      if IsNotExist(e) then
        var g := GenerateKeyFiles(OsFileSystem, disk, loc, entropy);
        match g.result
        case Err(e2) => Outcome(g.fs, Err(e2))
        case Ok(pair) => Outcome(g.fs, Ok(KeyManager(loc, pair.privateKey, pair.publicKey, OsFileSystem)))
      else Outcome(disk, Err(e))
    case Ok(priv) =>
      match LoadPublicKeyFromFile(disk, PublicPath(loc))
      case Err(e) => Outcome(disk, Err(e))
      case Ok(pub) => Outcome(disk, Ok(KeyManager("", priv, pub, NilFileSystem)))
  }

  /** `NewKeyManager` with the load path keeping the location and the file
      system, as the generation path does. */
  function NewKeyManagerKeepingStorage(disk: Fs, loc: string, entropy: Option<nat>): (o: Outcome<KeyManager>)
    ensures o.fs == NewKeyManager(disk, loc, entropy).fs
    ensures o.result.Ok? <==> NewKeyManager(disk, loc, entropy).result.Ok?
    ensures o.result.Ok? ==> && o.result.value.fileLocation == loc && o.result.value.fs == OsFileSystem
                             && o.result.value.privateKey == NewKeyManager(disk, loc, entropy).result.value.privateKey
                             && o.result.value.publicKey == NewKeyManager(disk, loc, entropy).result.value.publicKey
    ensures NewKeyManager(disk, loc, entropy).result.Err? ==> o == NewKeyManager(disk, loc, entropy)
  {
    var o := NewKeyManager(disk, loc, entropy);
    match o.result
    case Err(e) => o
    case Ok(km) => Outcome(o.fs, Ok(km.(fileLocation := loc, fs := OsFileSystem)))
  }

  /** `GenerateNewKeyPair`: regenerate and rewrite both files at the manager's
      location; the in-memory pair changes only on success. */
  function GenerateNewKeyPair(km: KeyManager, disk: Fs, entropy: Option<nat>): (r: Rotation)
    ensures r.result.Err? ==> r.manager == km
    ensures r.result.Ok? ==> && r.manager.fileLocation == km.fileLocation && r.manager.fs == km.fs
                             && r.manager.publicKey == PublicOf(r.manager.privateKey)
                             && PrivatePath(km.fileLocation) in r.fs.files && PublicPath(km.fileLocation) in r.fs.files
                             && r.fs.files[PrivatePath(km.fileLocation)] == PrivateKeyPem(r.manager.privateKey)
                             && r.fs.files[PublicPath(km.fileLocation)] == PublicKeyPem(r.manager.publicKey)
    ensures km.fs == NilFileSystem ==> r == Rotation(km, disk, Err(Panic(NilFsPanic)))
    ensures r.result.Ok? <==> && km.fs == OsFileSystem && entropy.Some?
                              && (km.fileLocation in disk.dirs || Stat(disk, km.fileLocation) == Err(Io(NotExist)))
                              && PrivatePath(km.fileLocation) !in disk.denied && PublicPath(km.fileLocation) !in disk.denied
                              && PrivatePath(km.fileLocation) !in disk.dirs && PublicPath(km.fileLocation) !in disk.dirs
                              && !disk.diskFull
    ensures r.result.Ok? ==> && r.manager.privateKey == GenerateKey(entropy).value
                             && r.manager.privateKey.bits == GeneratedKeyBits
    ensures r.result.Ok? ==> r.fs.files == disk.files[PrivatePath(km.fileLocation) := PrivateKeyPem(r.manager.privateKey)]
                                                     [PublicPath(km.fileLocation) := PublicKeyPem(r.manager.publicKey)]
  {
    KeyPathsDiffer(km.fileLocation);
    var g := GenerateKeyFiles(km.fs, disk, km.fileLocation, entropy);
    match g.result
    case Err(e) => Rotation(km, g.fs, Err(e))
    case Ok(pair) => Rotation(km.(privateKey := pair.privateKey, publicKey := pair.publicKey), g.fs, Ok(()))
  }

  function GetRsaPrivateKey(km: KeyManager): PrivateKey {
    km.privateKey
  }

  function GetRsaPublicKey(km: KeyManager): PublicKey {
    km.publicKey
  }

  /** `GetPublicKey`: the public key as PKIX DER in a PEM block of type
      "RSA PUBLIC KEY"; a verifier built from that text holds the same key. */
  function GetPublicKey(km: KeyManager): (r: Result<PemText, Error>)
    ensures r.Ok?
    ensures DecodePem(r.value).Some? && DecodePem(r.value).value.blockType == PublicKeyType
    ensures TokenVerifier.LoadPublicKeyFromString(r.value) == Ok(km.publicKey)
  {
    Ok(PublicKeyPem(km.publicKey))
  }

  /** When the private file cannot be written, the public file is not
      touched: only the private path (and possibly the directory) changes. */
  lemma PrivateWriteFailureLeavesPublicUntouched(disk: Fs, loc: string, seed: nat)
    requires loc in disk.dirs
    requires PrivatePath(loc) in disk.denied || disk.diskFull
    ensures var o := GenerateKeyFiles(OsFileSystem, disk, loc, Some(seed));
      && o.result.Err?
      && o.fs.files - {PrivatePath(loc)} == disk.files - {PrivatePath(loc)}
  {
  }

  /** Loading again from a location the manager was just generated into gives
      back the same key material and writes nothing. */
  lemma ReloadAfterGenerate(disk: Fs, loc: string, e1: Option<nat>, e2: Option<nat>)
    requires ReadFile(disk, PrivatePath(loc)) == Err(Io(NotExist))
    requires NewKeyManager(disk, loc, e1).result.Ok?
    ensures var first := NewKeyManager(disk, loc, e1);
      var second := NewKeyManager(first.fs, loc, e2);
      && second.fs == first.fs
      && second.result.Ok?
      && second.result.value.privateKey == first.result.value.privateKey
      && second.result.value.publicKey == first.result.value.publicKey
  {
    KeyPathsDiffer(loc);
    var first := NewKeyManager(disk, loc, e1);
    var g := GenerateKeyFiles(OsFileSystem, disk, loc, e1);
    assert first.fs.files[PrivatePath(loc)] == PrivateKeyPem(g.result.value.privateKey);
    assert first.fs.files[PublicPath(loc)] == PublicKeyPem(g.result.value.publicKey);
  }

  /** The load path never compares the two files: a public key that does not
      belong to the private key is accepted. */
  lemma MismatchedPairIsLoaded()
    ensures var priv := PrivateKey(1, GeneratedKeyBits);
      var pub := PublicKey(2, GeneratedKeyBits);
      var disk := Fs(map[PrivatePath("keys") := PrivateKeyPem(priv), PublicPath("keys") := PublicKeyPem(pub)],
                     map["keys" := KeysDirMode], {}, false);
      var o := NewKeyManager(disk, "keys", None);
      o.result.Ok? && o.result.value.publicKey != PublicOf(o.result.value.privateKey)
  {
    KeyPathsDiffer("keys");
  }

  /** A present private key with a missing public file is an error; nothing is
      regenerated or written. */
  lemma MissingPublicKeyIsFatal(disk: Fs, loc: string, e: Option<nat>)
    requires LoadPrivateKeyFromFile(disk, PrivatePath(loc)).Ok?
    requires PublicPath(loc) !in disk.files
    ensures NewKeyManager(disk, loc, e) == Outcome(disk, Err(ReadFile(disk, PublicPath(loc)).error))
    ensures PublicPath(loc) !in disk.denied && PublicPath(loc) !in disk.dirs && !UnderFile(disk, PublicPath(loc))
      ==> NewKeyManager(disk, loc, e) == Outcome(disk, Err(Io(NotExist)))
  {
  }

  /** As written, a manager built by loading has lost its location and file
      system, so rotating its keys panics, whatever the file store holds. */
  lemma LoadedManagerCannotRotate(disk: Fs, loc: string, e: Option<nat>, later: Fs, e2: Option<nat>)
    requires LoadPrivateKeyFromFile(disk, PrivatePath(loc)).Ok?
    requires NewKeyManager(disk, loc, e).result.Ok?
    ensures var km := NewKeyManager(disk, loc, e).result.value;
      && km.fileLocation == "" && km.fs == NilFileSystem
      && GenerateNewKeyPair(km, later, e2) == Rotation(km, later, Err(Panic(NilFsPanic)))
  {
  }

  /** A directory where the private key file should be is an error that is
      not "does not exist": nothing is generated or written over it. */
  lemma DirectoryAtKeyPathIsReturned(disk: Fs, loc: string, e: Option<nat>)
    requires PrivatePath(loc) in disk.dirs && PrivatePath(loc) !in disk.denied
    ensures NewKeyManager(disk, loc, e) == Outcome(disk, Err(Io(IsADirectory)))
  {
  }

  /** A regular file where the keys directory should be: reading the key
      file through it is an error that is not "does not exist". */
  lemma FileAtKeyDirectoryIsReturned(disk: Fs, loc: string, e: Option<nat>)
    requires loc in disk.files
    requires PrivatePath(loc) !in disk.denied && PrivatePath(loc) !in disk.dirs && PrivatePath(loc) !in disk.files
    ensures NewKeyManager(disk, loc, e) == Outcome(disk, Err(Io(NotADirectory)))
  {
    assert loc + "/" <= PrivatePath(loc);
  }

  /** With the location and file system kept, a loaded manager rotates its
      keys into the files it was loaded from. */
  lemma KeptStorageRotates(disk: Fs, loc: string, e: Option<nat>, later: Fs, seed: nat)
    requires NewKeyManagerKeepingStorage(disk, loc, e).result.Ok?
    requires loc in later.dirs && PrivatePath(loc) !in later.denied && PublicPath(loc) !in later.denied
    requires PrivatePath(loc) !in later.dirs && PublicPath(loc) !in later.dirs
    requires !later.diskFull
    ensures var km := NewKeyManagerKeepingStorage(disk, loc, e).result.value;
      var r := GenerateNewKeyPair(km, later, Some(seed));
      && r.result.Ok?
      && r.fs.files[PrivatePath(loc)] == PrivateKeyPem(r.manager.privateKey)
      && r.fs.files[PublicPath(loc)] == PublicKeyPem(r.manager.publicKey)
  {
  }

  /** The directory step's error is dropped: when the directory cannot be
      made, generation carries on and fails later, at `Create`, with a
      different error. */
  lemma FolderErrorIsIgnored(disk: Fs, loc: string, seed: nat)
    requires Stat(disk, loc) == Err(Io(NotExist)) && disk.diskFull
    ensures CreateKeysFolderIfNotExists(OsFileSystem, disk, loc).result == Err(Io(NoSpace))
    ensures GenerateKeyFiles(OsFileSystem, disk, loc, Some(seed)).result == Err(Io(NotExist))
  {
  }

  /** The exported public key loads back under any PEM block type: neither
      loader looks at the type. */
  lemma ExportedKeyLoadsUnderAnyBlockType(km: KeyManager, blockType: string, disk: Fs, path: string)
    requires ReadFile(disk, path) == Ok(Armored(PemBlock(blockType, MarshalPkixPublicKey(km.publicKey))))
    ensures TokenVerifier.LoadPublicKeyFromString(GetPublicKey(km).value) == Ok(km.publicKey)
    ensures LoadPublicKeyFromFile(disk, path) == Ok(km.publicKey)
  {
  }
}

=== FILE: log_middleware.dfy ===
/** The log package's context helpers: the logger stored in a context, and
    the correlation ID carried in incoming and outgoing metadata. */
module LogMiddleware {
  import opened Results
  import opened Context

  /** The metadata key of the correlation ID. */
  const CorrelationIDKey: string := "correlation_id"

  const LoggerNotFound: string := "Logger not found in context"
  const MetadataNotFound: string := "Metadata not found in context"
  const CorrelationIDNotFound: string := "Correlation ID not found in metadata"
  const TransferPrefix: string := "Error getting correlation ID from context: "

  /** `GetLoggerFromContext`: the value under the logger key, when it is a
      logger. */
  function GetLoggerFromContext(ctx: Context): (r: Result<Logger, string>)
    ensures r.Ok? <==> LoggerKey in ctx.values && ctx.values[LoggerKey].LoggerValue?
    ensures r.Ok? ==> r.value == ctx.values[LoggerKey].logger
    ensures r.Err? ==> r.error == LoggerNotFound
  {
    if LoggerKey in ctx.values && ctx.values[LoggerKey].LoggerValue? then Ok(ctx.values[LoggerKey].logger)
    else Err(LoggerNotFound)
  }

  /** `GetCorrelationIDFromContext`: exactly one value under the key. */
  function GetCorrelationIDFromContext(ctx: Context): (r: Result<string, string>)
    ensures r.Ok? <==> ctx.incoming.Some? && |Values(ctx.incoming.value, CorrelationIDKey)| == 1
    ensures r.Ok? ==> r.value == Values(ctx.incoming.value, CorrelationIDKey)[0]
    ensures ctx.incoming.None? ==> r == Err(MetadataNotFound)
    ensures ctx.incoming.Some? && r.Err? ==> r.error == CorrelationIDNotFound
  {
    match ctx.incoming
    case None => Err(MetadataNotFound)
    case Some(md) =>
      if CorrelationIDKey !in md || |md[CorrelationIDKey]| != 1 then Err(CorrelationIDNotFound)
      else Ok(md[CorrelationIDKey][0])
  }

  /** `AddCorrelationIDToOutgoingContext`: the ID is appended to the outgoing
      metadata; other keys and any earlier correlation IDs stay. */
  function AddCorrelationIDToOutgoingContext(ctx: Context, id: string): (r: Context)
    ensures r.incoming == ctx.incoming && r.values == ctx.values && r.outgoing.Some?
    ensures Values(r.outgoing.value, CorrelationIDKey) == Values(OutgoingOrEmpty(ctx), CorrelationIDKey) + [id]
    ensures forall k :: k != CorrelationIDKey ==> Values(r.outgoing.value, k) == Values(OutgoingOrEmpty(ctx), k)
    ensures r.outgoing.value.Keys == OutgoingOrEmpty(ctx).Keys + {CorrelationIDKey}
  {
    JoinOutgoing(ctx, NewMD(CorrelationIDKey, id))
  }

  /** `AddCorrelationIDToIncomingContext`: the incoming metadata is replaced by
      the single entry, so the ID can be read straight back. */
  function AddCorrelationIDToIncomingContext(ctx: Context, id: string): (r: Context)
    ensures r.outgoing == ctx.outgoing && r.values == ctx.values
    ensures r.incoming == Some(map[CorrelationIDKey := [id]])
    ensures GetCorrelationIDFromContext(r) == Ok(id)
  {
    ctx.(incoming := Some(NewMD(CorrelationIDKey, id)))
  }

  /** `TransferCorrelationIDToOutgoingContext`: fails exactly when the incoming
      lookup fails; otherwise the outgoing metadata gains that same ID. */
  function TransferCorrelationIDToOutgoingContext(ctx: Context): (r: Result<Context, string>)
    ensures r.Err? <==> GetCorrelationIDFromContext(ctx).Err?
    ensures r.Err? ==> r.error == TransferPrefix + GetCorrelationIDFromContext(ctx).error
    ensures r.Ok? ==> r.value.outgoing.Some? && Values(r.value.outgoing.value, CorrelationIDKey)
                      == Values(OutgoingOrEmpty(ctx), CorrelationIDKey) + [Values(ctx.incoming.value, CorrelationIDKey)[0]]
    ensures r.Ok? ==> r.value.incoming == ctx.incoming && r.value.values == ctx.values
    ensures r.Ok? ==> forall k :: k != CorrelationIDKey ==> Values(r.value.outgoing.value, k) == Values(OutgoingOrEmpty(ctx), k)
    ensures r.Ok? ==> r.value.outgoing.value.Keys == OutgoingOrEmpty(ctx).Keys + {CorrelationIDKey}
    ensures r.Ok? ==> r.value == AddCorrelationIDToOutgoingContext(ctx, GetCorrelationIDFromContext(ctx).value)
  {
    match GetCorrelationIDFromContext(ctx)
    case Err(e) => Err(TransferPrefix + e)
    case Ok(id) => Ok(AddCorrelationIDToOutgoingContext(ctx, id))
  }

  /** The unit tests' scenarios. */
  lemma CorrelationIDScenarios(id: string, logger: Logger)
    ensures GetLoggerFromContext(WithValue(Background, LoggerKey, LoggerValue(logger))) == Ok(logger)
    ensures GetCorrelationIDFromContext(Background.(incoming := Some(NewMD(CorrelationIDKey, id)))) == Ok(id)
    ensures Values(AddCorrelationIDToOutgoingContext(Background, id).outgoing.value, CorrelationIDKey)[0] == id
    ensures GetCorrelationIDFromContext(Background) == Err(MetadataNotFound)
    ensures GetCorrelationIDFromContext(Background.(incoming := Some(map[]))) == Err(CorrelationIDNotFound)
    ensures GetCorrelationIDFromContext(Background.(incoming := Some(map[CorrelationIDKey := ["id1", "id2"]])))
            == Err(CorrelationIDNotFound)
    ensures GetLoggerFromContext(Background) == Err(LoggerNotFound)
    ensures GetLoggerFromContext(WithValue(Background, LoggerKey, OtherValue("string"))) == Err(LoggerNotFound)
  {
  }

  /** An outgoing context that already carries a correlation ID ends up with
      two, so a later single-value lookup on it would refuse it. */
  lemma OutgoingCorrelationIDAccumulates(ctx: Context, first: string, second: string)
    ensures var c := AddCorrelationIDToOutgoingContext(AddCorrelationIDToOutgoingContext(ctx, first), second);
      Values(c.outgoing.value, CorrelationIDKey) == Values(OutgoingOrEmpty(ctx), CorrelationIDKey) + [first, second]
  {
  }

  /** A fresh ID placed in the incoming metadata is what the transfer copies
      to the outgoing metadata (the middleware's two steps). */
  lemma NewIDReachesOutgoing(ctx: Context, id: string)
    ensures var t := TransferCorrelationIDToOutgoingContext(AddCorrelationIDToIncomingContext(ctx, id));
      t.Ok? && Values(t.value.outgoing.value, CorrelationIDKey) == Values(OutgoingOrEmpty(ctx), CorrelationIDKey) + [id]
  {
    var c := AddCorrelationIDToIncomingContext(ctx, id);
    assert Values(c.incoming.value, CorrelationIDKey) == [id];
  }
}

=== FILE: logger_factory.dfy ===
/** `LogFactory`: loggers whose level is chosen by the environment name, with
    or without the request's correlation ID. */
module LoggerFactory {
  import opened Results
  import opened Context
  import opened LogMiddleware

  const ProductionEnvironment: string := "prod"

  datatype LogFactory = LogFactory(environment: string)

  /** `setUpLevel`: warnings and above in production, everything else at debug. */
  function SetUpLevel(environment: string): (l: Level)
    ensures l == WarnLevel <==> environment == ProductionEnvironment
    ensures l != WarnLevel ==> l == DebugLevel
  {
    if environment == ProductionEnvironment then WarnLevel else DebugLevel
  }

  /** `NewLogger`: no correlation ID; the level comes from the environment. */
  function NewLogger(f: LogFactory): (r: Logger)
    ensures r.correlationID.None?
    ensures r.level == WarnLevel <==> f.environment == ProductionEnvironment
    ensures f.environment != ProductionEnvironment ==> r.level == DebugLevel
    ensures r.level == SetUpLevel(f.environment)
  {
    Logger(SetUpLevel(f.environment), None)
  }

  /** `NewLoggerWithCorrelationID`: the same checks, in the same order and with
      the same messages, as `GetCorrelationIDFromContext`. */
  function NewLoggerWithCorrelationID(f: LogFactory, ctx: Context): (r: Result<Logger, string>)
    ensures r.Ok? <==> GetCorrelationIDFromContext(ctx).Ok?
    ensures r.Err? ==> r.error == GetCorrelationIDFromContext(ctx).error
    ensures r.Ok? ==> r.value.correlationID == Some(GetCorrelationIDFromContext(ctx).value)
    ensures r.Ok? ==> r.value.level == NewLogger(f).level
  {
    match ctx.incoming
    case None => Err(MetadataNotFound)
    case Some(md) =>
      if CorrelationIDKey !in md || |md[CorrelationIDKey]| != 1 then Err(CorrelationIDNotFound)
      else Ok(Logger(SetUpLevel(f.environment), Some(md[CorrelationIDKey][0])))
  }

  /** The unit tests' scenarios. */
  lemma FactoryScenarios()
    ensures NewLogger(LogFactory(ProductionEnvironment)).level == WarnLevel
    ensures NewLogger(LogFactory("development")).level == DebugLevel
    ensures NewLoggerWithCorrelationID(LogFactory("development"),
              Background.(incoming := Some(map[CorrelationIDKey := ["test-correlation-id"]]))).Ok?
    ensures NewLoggerWithCorrelationID(LogFactory("development"), Background) == Err(MetadataNotFound)
  {
  }
}

=== FILE: results.dfy ===
/** Failure-compatible wrappers used throughout the model: Go's `(value, error)`
    pairs become `Result`, and nil-able values become `Option`. */
module Results {

  datatype Option<+T> = None | Some(value: T)

  datatype Result<+T, +E> = Ok(value: T) | Err(error: E) {

    predicate IsFailure() {
      Err?
    }

    function PropagateFailure<U>(): Result<U, E>
      requires Err?
    {
      Err(error)
    }

    function Extract(): T
      requires Ok?
    {
      value
    }
  }
}

=== FILE: token_inspector.dfy ===
/** `TokenInspector`: partial projections from a parsed token's claim set to
    typed values, and their composition into `TokenClaims`. */
module TokenInspector {
  import opened Results
  import opened Errors
  import opened ClaimTypes
  import opened JwtLibrary

  /** The claim set holds a string under `key`. */
  predicate HasString(m: ClaimMap, key: string) {
    key in m && m[key].JString?
  }

  /** The claim set holds a number under `key`. */
  predicate HasNumber(m: ClaimMap, key: string) {
    key in m && m[key].JNumber?
  }

  /** `GetClaimFromToken`: the raw value under a key. A missing key reads as
      nil, exactly like a JSON null. */
  function GetClaimFromToken(t: Token, key: string): (r: Result<Json, Error>)
    ensures r.Err? <==> !t.claims.MapClaims?
    ensures r.Err? ==> r.error == ClaimsNotMap(Inspector)
    ensures r.Ok? && key !in t.claims.m ==> r.value == JNull
    ensures r.Ok? && key in t.claims.m ==> r.value == t.claims.m[key]
  {
    match t.claims
    case OtherClaims => Err(ClaimsNotMap(Inspector))
    case MapClaims(m) => Ok(if key in m then m[key] else JNull)
  }

  /** The expiry under a given key: a JSON number, truncated to whole seconds.
      Shared by the inspector (key "exp") and the older authenticator (key
      "expiry"), whose bodies do the same two checks; `origin` says whose
      messages the errors carry. */
  function ExpiryUnder(t: Token, key: string, origin: Component): (r: Result<Instant, Error>)
    ensures r.Ok? <==> t.claims.MapClaims? && HasNumber(t.claims.m, key)
    ensures !t.claims.MapClaims? ==> r == Err(ClaimsNotMap(origin))
    ensures t.claims.MapClaims? && r.Err? ==> r.error == ExpiryNotValid(origin)
    ensures r.Ok? ==> r.value.nsec == 0
    ensures r.Ok? ==> var n := t.claims.m[key].n;
      && (0.0 <= n ==> r.value.sec as real <= n < r.value.sec as real + 1.0)
      && (n < 0.0 ==> r.value.sec as real - 1.0 < n <= r.value.sec as real)
  {
    if !t.claims.MapClaims? then Err(ClaimsNotMap(origin))
    else
      var v := GetClaimFromToken(t, key).value;
      if !v.JNumber? then Err(ExpiryNotValid(origin)) else Ok(FromUnix(Truncate(v.n)))
  }

  /** A string claim; `bad` is the getter's own error for any other value and
      `origin` names whose "claims are not valid" message a non-map gets. */
  function StringClaim(t: Token, key: string, origin: Component, bad: Error): (r: Result<string, Error>)
    ensures r.Ok? <==> t.claims.MapClaims? && HasString(t.claims.m, key)
    ensures !t.claims.MapClaims? ==> r == Err(ClaimsNotMap(origin))
    ensures t.claims.MapClaims? && r.Err? ==> r.error == bad
    ensures r.Ok? ==> r.value == t.claims.m[key].s
  {
    if !t.claims.MapClaims? then Err(ClaimsNotMap(origin))
    else
      var v := GetClaimFromToken(t, key).value;
      if !v.JString? then Err(bad) else Ok(v.s)
  }

  function GetExpiryFromToken(t: Token): (r: Result<Instant, Error>)
    ensures r.Ok? <==> t.claims.MapClaims? && HasNumber(t.claims.m, ExpiryClaim)
    ensures r.Ok? ==> r.value == FromUnix(Truncate(t.claims.m[ExpiryClaim].n))
  {
    ExpiryUnder(t, ExpiryClaim, Inspector)
  }

  function GetEmailFromToken(t: Token): (r: Result<string, Error>)
    ensures r.Ok? <==> t.claims.MapClaims? && HasString(t.claims.m, EmailClaim)
    ensures r.Ok? ==> r.value == t.claims.m[EmailClaim].s
    ensures !t.claims.MapClaims? ==> r == Err(ClaimsNotMap(Inspector))
    ensures t.claims.MapClaims? && r.Err? ==> r.error == EmailNotValid(Inspector)
  {
    StringClaim(t, EmailClaim, Inspector, EmailNotValid(Inspector))
  }

  /** Any string is accepted and converted; it is not checked against the four
      declared token types. */
  function GetTypeFromToken(t: Token): (r: Result<TokenType, Error>)
    ensures r.Ok? <==> t.claims.MapClaims? && HasString(t.claims.m, TypeClaim)
    ensures r.Ok? ==> r.value.name == t.claims.m[TypeClaim].s
    ensures !t.claims.MapClaims? ==> r == Err(ClaimsNotMap(Inspector))
    ensures t.claims.MapClaims? && r.Err? ==> r.error == TypeNotValid
  {
    var s :- StringClaim(t, TypeClaim, Inspector, TypeNotValid);
    Ok(TokenType(s))
  }

  /** A non-string user id is reported with the type getter's message. */
  function GetUserIDFromToken(t: Token): (r: Result<string, Error>)
    ensures r.Ok? <==> t.claims.MapClaims? && HasString(t.claims.m, UserIDClaim)
    ensures r.Ok? ==> r.value == t.claims.m[UserIDClaim].s
    ensures !t.claims.MapClaims? ==> r == Err(ClaimsNotMap(Inspector))
    ensures t.claims.MapClaims? && r.Err? ==> r.error == TypeNotValid
  {
    StringClaim(t, UserIDClaim, Inspector, TypeNotValid)
  }

  /** `GetClaimsFromToken`: email, type, expiry and user id, in that order; the
      first failure is returned, wrapped with its step. */
  function GetClaimsFromToken(t: Token): (r: Result<TokenClaims, Error>)
    ensures r.Ok? <==> t.claims.MapClaims? && WellTyped(t.claims.m)
    ensures r.Ok? ==> var m := t.claims.m;
      r.value == TokenClaims(m[EmailClaim].s, TokenType(m[TypeClaim].s), FromUnix(Truncate(m[ExpiryClaim].n)), m[UserIDClaim].s)
    ensures !t.claims.MapClaims? ==> r == Err(While(EmailStep, ClaimsNotMap(Inspector)))
    ensures t.claims.MapClaims? ==> var m := t.claims.m;
      && (!HasString(m, EmailClaim) ==> r == Err(While(EmailStep, EmailNotValid(Inspector))))
      && (HasString(m, EmailClaim) && !HasString(m, TypeClaim) ==> r == Err(While(TypeStep, TypeNotValid)))
      && (HasString(m, EmailClaim) && HasString(m, TypeClaim) && !HasNumber(m, ExpiryClaim)
          ==> r == Err(While(ExpiryStep, ExpiryNotValid(Inspector))))
      && (HasString(m, EmailClaim) && HasString(m, TypeClaim) && HasNumber(m, ExpiryClaim) && !HasString(m, UserIDClaim)
          ==> r == Err(While(ExpiryStep, TypeNotValid)))
  {
    match GetEmailFromToken(t)
    case Err(e) => Err(While(EmailStep, e))
    case Ok(email) =>
      match GetTypeFromToken(t)
      case Err(e) => Err(While(TypeStep, e))
      case Ok(tokenType) =>
        match GetExpiryFromToken(t)
        case Err(e) => Err(While(ExpiryStep, e))
        case Ok(expiry) =>
          match GetUserIDFromToken(t)
          case Err(e) => Err(While(ExpiryStep, e))
          case Ok(userID) => Ok(TokenClaims(email, tokenType, expiry, userID))
  }

  /** The four claims `GetClaimsFromToken` needs, with the types it needs. */
  predicate WellTyped(m: ClaimMap) {
    && HasString(m, EmailClaim)
    && HasString(m, TypeClaim)
    && HasNumber(m, ExpiryClaim)
    && HasString(m, UserIDClaim)
  }

  /** `GetClaimsFromTokenString`: parse without any signature or expiry check,
      then project. */
  function GetClaimsFromTokenString(s: Jws): (r: Result<TokenClaims, Error>)
    ensures r.Ok? <==> ParseUnverified(s).Ok? && WellTyped(s.payload)
    ensures r.Ok? ==> var m := s.payload;
      r.value == TokenClaims(m[EmailClaim].s, TokenType(m[TypeClaim].s), FromUnix(Truncate(m[ExpiryClaim].n)), m[UserIDClaim].s)
    ensures ParseUnverified(s).Err? ==> r == Err(ParseUnverified(s).error)
    ensures ParseUnverified(s).Ok? ==> r == GetClaimsFromToken(ParseUnverified(s).value)
  {
    var t :- ParseUnverified(s);
    GetClaimsFromToken(t)
  }

  /** A whole number of seconds is read back exactly. */
  lemma ExpiryOfWholeSeconds(t: Token, key: string, sec: int)
    requires t.claims.MapClaims? && key in t.claims.m && t.claims.m[key] == JNumber(sec as real)
    ensures ExpiryUnder(t, key, Inspector) == Ok(FromUnix(sec))
  {
    var r := ExpiryUnder(t, key, Inspector);
    if sec < 0 {
      assert r.value.sec as real - 1.0 < sec as real <= r.value.sec as real;
    }
  }

  /** The type getter accepts a string that is none of the declared types. */
  lemma TypeIsNotChecked()
    ensures var t := Token(Rsa(256), NewRs256Header(), MapClaims(map[TypeClaim := JString("Bogus")]), OpaqueSignature(""), true);
      && GetTypeFromToken(t) == Ok(TokenType("Bogus"))
      && !IsDeclaredTokenType(GetTypeFromToken(t).value)
  {
  }
}

=== FILE: token_signer.dfy ===
/** `TokenSigner.SignToken`: seed a claim set with the issue time and a nonce,
    merge the caller's claims into it left to right, and sign it with RS256. */
module TokenSigner {
  import opened Results
  import opened Errors
  import opened ClaimTypes
  import opened Crypto
  import opened JwtLibrary

  /** The dynamic type of a claim value: the three cases of the signer's type
      switch, and any other Go type, named by its reflected type. */
  datatype ClaimValue =
    | TimeValue(time: Instant)
    | StringValue(text: string)
    | TokenTypeValue(tokenType: TokenType)
    | OtherValue(goType: string)

  datatype ClaimPair = ClaimPair(key: string, value: ClaimValue)

  datatype TokenSigner = TokenSigner(rsaPrivateKey: PrivateKey)

  /** What the type switch stores for a value, as it reads after the JSON round
      trip of the payload; `None` for the default branch. */
  function EncodeValue(v: ClaimValue): Option<Json> {
    match v
    case TimeValue(t) => Some(JNumber(t.sec as real))
    case StringValue(s) => Some(JString(s))
    case TokenTypeValue(tt) => Some(JString(tt.name))
    case OtherValue(_) => None
  }

  predicate AllSupported(claims: seq<ClaimPair>) {
    forall i :: 0 <= i < |claims| ==> !claims[i].value.OtherValue?
  }

  function KeysOf(claims: seq<ClaimPair>): set<string> {
    set i | 0 <= i < |claims| :: claims[i].key
  }

  /** Claim `i` is the last one in the list with its key. */
  predicate IsLastFor(claims: seq<ClaimPair>, i: int) {
    && 0 <= i < |claims|
    && forall j :: i < j < |claims| ==> claims[j].key != claims[i].key
  }

  /** The claim set before any caller claim is applied. */
  function Seed(now: Instant, nonce: string): ClaimMap {
    map[IssuedAtClaim := JNumber(now.sec as real), NonceClaim := JString(nonce)]
  }

  /** The loop over the caller's claims: each supported value is assigned
      under its key; the first unsupported one aborts the whole call. */
  function ApplyClaims(m: ClaimMap, claims: seq<ClaimPair>): (r: Result<ClaimMap, Error>)
    ensures r.Ok? <==> AllSupported(claims)
    ensures r.Ok? ==> r.value.Keys == m.Keys + KeysOf(claims)
    ensures r.Err? ==> r.error.InvalidClaimValueType?
    decreases |claims|
  {
    if |claims| == 0 then Ok(m)
    else
      assert KeysOf(claims) == {claims[0].key} + KeysOf(claims[1..]) by {
        forall k | k in KeysOf(claims) ensures k in {claims[0].key} + KeysOf(claims[1..]) {
          var i :| 0 <= i < |claims| && claims[i].key == k;
          if i > 0 { assert claims[1..][i - 1].key == k; }
        }
      }
      match EncodeValue(claims[0].value)
      case None => Err(InvalidClaimValueType(claims[0].value.goType))
      case Some(j) => ApplyClaims(m[claims[0].key := j], claims[1..])
  }

  /** The signer's entry point. */
  function SignToken(signer: TokenSigner, now: Instant, nonce: string, claims: seq<ClaimPair>): (r: Result<Jws, Error>)
    ensures r.Ok? <==> AllSupported(claims) && MinRs256ModulusBytes <= ModulusBytes(signer.rsaPrivateKey)
    ensures !AllSupported(claims) ==> r.Err? && r.error.InvalidClaimValueType?
    ensures r.Ok? ==> r.value.Compact? && r.value.header.alg == JString("RS256")
    ensures r.Ok? ==> r.value.payload.Keys == {IssuedAtClaim, NonceClaim} + KeysOf(claims)
    ensures r.Ok? ==> SignatureVerifies(Rsa(256), PublicOf(signer.rsaPrivateKey), r.value)
  {
    var payload :- ApplyClaims(Seed(now, nonce), claims);
    SignRs256(NewRs256Header(), payload, signer.rsaPrivateKey)
  }

  /** The first unsupported claim is the one the error names, wherever it is. */
  lemma {:induction false} FirstUnsupportedIsReported(m: ClaimMap, claims: seq<ClaimPair>, i: nat)
    requires i < |claims| && claims[i].value.OtherValue?
    requires AllSupported(claims[..i])
    ensures ApplyClaims(m, claims) == Err(InvalidClaimValueType(claims[i].value.goType))
    decreases i
  {
    if i > 0 {
      assert !claims[0].value.OtherValue? by { assert claims[..i][0] == claims[0]; }
      var j := EncodeValue(claims[0].value).value;
      assert claims[1..][..i - 1] == claims[..i][1..];
      FirstUnsupportedIsReported(m[claims[0].key := j], claims[1..], i - 1);
    }
  }

  /** A key no caller claim uses keeps its seeded value. */
  lemma {:induction false} UntouchedKeysKeepValue(m: ClaimMap, claims: seq<ClaimPair>, k: string)
    requires AllSupported(claims) && k in m && k !in KeysOf(claims)
    ensures ApplyClaims(m, claims).value[k] == m[k]
    decreases |claims|
  {
    if |claims| > 0 {
      assert claims[0].key in KeysOf(claims);
      assert KeysOf(claims[1..]) <= KeysOf(claims) by {
        forall x | x in KeysOf(claims[1..]) ensures x in KeysOf(claims) {
          var i :| 0 <= i < |claims[1..]| && claims[1..][i].key == x;
          assert claims[i + 1].key == x;
        }
      }
      var j := EncodeValue(claims[0].value).value;
      UntouchedKeysKeepValue(m[claims[0].key := j], claims[1..], k);
    }
  }

  /** Later duplicates win: each key ends up holding the value of the last
      caller claim with that key. */
  lemma {:induction false} LastClaimWins(m: ClaimMap, claims: seq<ClaimPair>, i: nat)
    requires AllSupported(claims) && IsLastFor(claims, i)
    ensures ApplyClaims(m, claims).value[claims[i].key] == EncodeValue(claims[i].value).value
    decreases i
  {
    var j := EncodeValue(claims[0].value).value;
    var m' := m[claims[0].key := j];
    if i == 0 {
      assert claims[0].key !in KeysOf(claims[1..]);
      UntouchedKeysKeepValue(m', claims[1..], claims[0].key);
    } else {
      assert IsLastFor(claims[1..], i - 1);
      LastClaimWins(m', claims[1..], i - 1);
    }
  }

  /** The seeded "iat" and nonce survive unless a caller claim reuses their
      keys, and the payload's key set is exactly the seed's plus the caller's. */
  lemma SeededClaims(signer: TokenSigner, now: Instant, nonce: string, claims: seq<ClaimPair>)
    requires SignToken(signer, now, nonce, claims).Ok?
    ensures var p := SignToken(signer, now, nonce, claims).value.payload;
      && (IssuedAtClaim !in KeysOf(claims) ==> p[IssuedAtClaim] == JNumber(now.sec as real))
      && (NonceClaim !in KeysOf(claims) ==> p[NonceClaim] == JString(nonce))
  {
    if IssuedAtClaim !in KeysOf(claims) {
      UntouchedKeysKeepValue(Seed(now, nonce), claims, IssuedAtClaim);
    }
    if NonceClaim !in KeysOf(claims) {
      UntouchedKeysKeepValue(Seed(now, nonce), claims, NonceClaim);
    }
  }

  /** Two signings that differ only in their nonce give different tokens, as
      long as no caller claim overwrites the nonce. */
  lemma NonceSeparatesTokens(signer: TokenSigner, now: Instant, n1: string, n2: string, claims: seq<ClaimPair>)
    requires n1 != n2 && NonceClaim !in KeysOf(claims)
    requires SignToken(signer, now, n1, claims).Ok?
    ensures SignToken(signer, now, n1, claims) != SignToken(signer, now, n2, claims)
  {
    SeededClaims(signer, now, n1, claims);
    if SignToken(signer, now, n2, claims).Ok? {
      SeededClaims(signer, now, n2, claims);
    }
  }

  /** A caller claim keyed "nonce" replaces the random nonce, so two signings
      with different nonces can produce the same token. */
  lemma CallerNonceDefeatsUniqueness()
    ensures var signer := TokenSigner(PrivateKey(1, GeneratedKeyBits));
      var claims := [ClaimPair(NonceClaim, StringValue("fixed"))];
      && SignToken(signer, Instant(0, 0), "a", claims).Ok?
      && SignToken(signer, Instant(0, 0), "a", claims) == SignToken(signer, Instant(0, 0), "b", claims)
  {
    var claims := [ClaimPair(NonceClaim, StringValue("fixed"))];
    assert Seed(Instant(0, 0), "a")[NonceClaim := JString("fixed")] == Seed(Instant(0, 0), "b")[NonceClaim := JString("fixed")];
  }
}

=== FILE: token_verifier.dfy ===
/** `TokenVerifier.Verify`: an RSA-only key function, the library's parse and
    signature check, then an expiry read and compared with the current time.
    The verifier is parameterised by the claim key it reads the expiry from,
    which is the only difference between it and the older authenticator. */
module TokenVerifier {
  import opened Results
  import opened Errors
  import opened ClaimTypes
  import opened Crypto
  import opened JwtLibrary
  import opened TokenInspector

  datatype TokenVerifier = TokenVerifier(publicKey: PublicKey)

  /** `loadPublicKeyFromString`. Text without a PEM block dereferences the nil
      block, and a PKIX key that is not RSA fails the unchecked type
      assertion: both panic. The block's type is never looked at. */
  function LoadPublicKeyFromString(pem: PemText): (r: Result<PublicKey, Error>)
    ensures r.Ok? <==> pem.Armored? && pem.block.der.PkixPublicKey? && pem.block.der.publicKey.RsaPublicKey?
    ensures r.Ok? ==> r.value == pem.block.der.publicKey.key
    ensures pem.Unarmored? ==> r.Err? && r.error.Panic?
    ensures pem.Armored? && pem.block.der.PkixPublicKey? && !pem.block.der.publicKey.RsaPublicKey?
      ==> r.Err? && r.error.Panic?
  {
    match DecodePem(pem)
    case None => Err(Panic("nil PEM block dereferenced"))
    case Some(block) =>
      var key :- ParsePkixPublicKey(block.der);
      if key.RsaPublicKey? then Ok(key.key)
      else Err(Panic("interface conversion: public key is not *rsa.PublicKey"))
  }

  function NewTokenVerifier(publicKeyString: PemText): (r: Result<TokenVerifier, Error>)
    ensures r.Ok? <==> LoadPublicKeyFromString(publicKeyString).Ok?
    ensures r.Ok? ==> r.value.publicKey == LoadPublicKeyFromString(publicKeyString).value
  {
    var key :- LoadPublicKeyFromString(publicKeyString);
    Ok(TokenVerifier(key))
  }

  /** The key function handed to `jwt.Parse`: the public key is supplied only
      for a method of Go type `*jwt.SigningMethodRSA`. */
  function KeyFor(pub: PublicKey, t: Token): (r: Result<PublicKey, Error>)
    ensures r.Ok? <==> t.signingMethod.Rsa?
    ensures r.Ok? ==> r.value == pub
    ensures r.Err? ==> r.error.UnexpectedSigningMethod?
    ensures r.Err? && t.header.alg.JString? ==> r.error == UnexpectedSigningMethod(t.header.alg.s)
  {
    if t.signingMethod.Rsa? then Ok(pub)
    else Err(UnexpectedSigningMethod(if t.header.alg.JString? then t.header.alg.s else ""))
  }

  /** What differs between the verifier and the older authenticator: the
      claim the expiry is read from, whose messages the expiry read reports
      (the verifier reads it through the inspector), and whose messages the
      "not valid" and "expired" verdicts carry. */
  datatype Checker = Checker(expiryKey: string, reader: Component, verdict: Component)

  const VerifierChecker: Checker := Checker(ExpiryClaim, Inspector, Verifier)

  /** The verification decision: the library's parse (key function, time
      claims, signature), then the expiry read and compared with `now`. */
  function VerifyWith(c: Checker, pub: PublicKey, s: Jws, now: Instant): (r: Result<Token, Error>)
    ensures r.Ok? <==> Accepts(c.expiryKey, pub, s, now)
    ensures r.Ok? ==> r.value == ParseUnverified(s).value.(valid := true)
    ensures ParseUnverified(s).Err? ==> r == Err(ParseUnverified(s).error)
    ensures ParseUnverified(s).Ok? && !ParseUnverified(s).value.signingMethod.Rsa?
      ==> r.Err? && r.error.UnexpectedSigningMethod?
    ensures (&& ParseUnverified(s).Ok? && !ParseUnverified(s).value.signingMethod.Rsa?
             && ParseUnverified(s).value.header.alg.JString?)
      ==> r == Err(UnexpectedSigningMethod(ParseUnverified(s).value.header.alg.s))
    ensures (&& ParseUnverified(s).Ok? && ParseUnverified(s).value.signingMethod.Rsa?
             && !SignatureVerifies(ParseUnverified(s).value.signingMethod, pub, s))
      ==> r == Err(SignatureInvalid)
    ensures (&& ParseUnverified(s).Ok? && SignatureVerifies(ParseUnverified(s).value.signingMethod, pub, s)
             && ValidateClaims(s.payload, now.sec).Some?)
      ==> r == Err(ClaimsRejected(ValidateClaims(s.payload, now.sec).value))
    ensures (&& ParseUnverified(s).Ok? && SignatureVerifies(ParseUnverified(s).value.signingMethod, pub, s)
             && ValidateClaims(s.payload, now.sec).None? && !HasNumber(s.payload, c.expiryKey))
      ==> r == Err(ExpiryNotValid(c.reader))
    ensures (&& ParseUnverified(s).Ok? && SignatureVerifies(ParseUnverified(s).value.signingMethod, pub, s)
             && ValidateClaims(s.payload, now.sec).None?
             && HasNumber(s.payload, c.expiryKey) && Before(FromUnix(Truncate(s.payload[c.expiryKey].n)), now))
      ==> r == Err(Expired(c.verdict))
  {
    var t :- Parse(s, (t: Token) => KeyFor(pub, t), now.sec);
    if !t.valid then Err(NotValid(c.verdict))
    else
      var expiry :- ExpiryUnder(t, c.expiryKey, c.reader);
      if Before(expiry, now) then Err(Expired(c.verdict)) else Ok(t)
  }

  /** The acceptance condition, stated on the token string itself: a
      registered RSA algorithm, a signature by the holder of `pub` over this
      header and payload, time claims the library accepts at the current
      second, and a numeric expiry not before `now`. */
  predicate Accepts(expiryKey: string, pub: PublicKey, s: Jws, now: Instant) {
    && s.Compact?
    && s.header.alg.JString?
    && GetSigningMethod(s.header.alg.s).Some?
    && GetSigningMethod(s.header.alg.s).value.Rsa?
    && SignatureVerifies(GetSigningMethod(s.header.alg.s).value, pub, s)
    && ExpiryPasses(s.payload, now.sec)
    && NotInFuture(s.payload, IssuedAtClaim, now.sec)
    && NotInFuture(s.payload, NotBeforeClaim, now.sec)
    && HasNumber(s.payload, expiryKey)
    && !Before(FromUnix(Truncate(s.payload[expiryKey].n)), now)
  }

  function Verify(v: TokenVerifier, s: Jws, now: Instant): (r: Result<Token, Error>)
    ensures r.Ok? <==> Accepts(ExpiryClaim, v.publicKey, s, now)
  {
    VerifyWith(VerifierChecker, v.publicKey, s, now)
  }

  /** At whole-second resolution an expiry equal to the current second is
      accepted; once the current second has begun to elapse it is expired. */
  lemma ExpiryBoundary(pub: PublicKey, s: Jws, sec: int, nsec: Nanos)
    requires ParseUnverified(s).Ok? && SignatureVerifies(ParseUnverified(s).value.signingMethod, pub, s)
    requires ExpiryClaim in s.payload && s.payload[ExpiryClaim] == JNumber(sec as real)
    requires NotInFuture(s.payload, IssuedAtClaim, sec) && NotInFuture(s.payload, NotBeforeClaim, sec)
    ensures VerifyWith(VerifierChecker, pub, s, Instant(sec, nsec)).Ok? <==> nsec == 0
  {
    TruncateWhole(sec);
  }

  /** The unverified projection can succeed where verification fails: an
      unsigned ("none") token with well-typed claims is projected, but no key
      is ever supplied for it. */
  lemma UnverifiedClaimsAreNotVerified(pub: PublicKey, now: Instant)
    ensures var s := Compact(Header(JString("JWT"), JString("none")),
                             map[EmailClaim := JString("a@b.c"), TypeClaim := JString("AccessTokenType"),
                                 ExpiryClaim := JNumber(now.sec as real + 3600.0), UserIDClaim := JString("u")],
                             OpaqueSignature(""));
      && GetClaimsFromTokenString(s).Ok?
      && VerifyWith(VerifierChecker, pub, s, now) == Err(UnexpectedSigningMethod("none"))
  {
  }

  /** Changing the payload of an accepted token, keeping its signature, makes
      the signature check fail. */
  lemma TamperedPayloadIsRejected(c: Checker, pub: PublicKey, s: Jws, now: Instant, forged: ClaimMap)
    requires VerifyWith(c, pub, s, now).Ok?
    requires forged != s.payload
    ensures VerifyWith(c, pub, s.(payload := forged), now) == Err(SignatureInvalid)
  {
  }
}
